=== FILE: README.md ===
# Favorites engine of quick-bookmark, in Dafny

This project models the core of the quick-bookmark VS Code extension. The
extension keeps a favorites view: a flat, persisted list of entries
(`resources` in the settings). Each entry is either a resource (a file path
or a URI string) or a folder. Every entry belongs to a group and may name a
parent folder by id. The model covers the following parts:

- **The tree view's read side** (`FavoritesProvider`).
  - It selects the current group's entries and probes each resource.
  - It drops resources that are neither a file nor a directory.
  - It splits the list into roots and folder children, with a single
    lookup in the set of folder ids. A dangling parent id therefore makes
    an item a root. Folders on a parent cycle whose ids no other folder
    node carries, and everything filed under them, are neither roots nor
    children of a shown folder, so the view never shows them.
  - It sorts each level: MANUAL keeps the list order; ASC and DESC put
    directories first, then order by label, stably.
  - It builds the tree nodes. Their context values carry a `uri.` prefix
    and a `.dir` suffix.
  - It lists the children of a directory resource. These are never kept in
    manual order: MANUAL reads as ASC there.
- **The list-editing commands**:
  - `createFolder`, `renameFolder` and `deleteFolder`. Delete removes the
    folder's whole descendant closure, collected by a recursive walk.
  - `addToFavorites` and `deleteFavorite`.
  - The four moves `moveUp`, `moveDown`, `moveToTop` and `moveToBottom`.
    Each works on the sibling scope of the node: the resource entries of the
    same group with the same parent, in list order.

## How it is modelled

**Pure logic.** The provider and the folder, add and delete commands compute
a new value from the old one, so they are functions on values.
- A command returns an `Outcome`: `Saved(new list)`, `NoOp` (a cancelled
  prompt, a missing target, nothing to do) or `DuplicateName` (the
  duplicate-folder warning).
- Prompt answers and the id `createFavoriteId` returns are parameters.
- The file system, `path` and URI helpers are fields of a `Host` value:
  `pathResolve`, `basename`, a stat probe, a directory listing, `path.join`,
  `Uri.joinPath`, and a parsed URI's `toString()` and `fsPath`.

**Imperative code.** The moves build their scope with a `forEach` and then
rearrange the loaded array, so they are methods.
- `BuildScope` is a while loop on an `array<Entry>`. It is proved equal to
  the function `ScopeOf`.
- `replaceArrayElements` is an in-place swap.
- The pair of `splice` calls is an in-place rotation.
- Each move returns whether `sortOrder` becomes 'MANUAL'.
- `collectDescendants` is a recursive method that threads its bucket set.
  It is proved to return the least set that holds the folder and is closed
  under the child-folder links.

**JavaScript semantics.**
- Truthiness of optional strings is written out (`Truthy`), and so is
  `x || undefined` (`Normalize`).
- The commands that read `currentGroup` raw take an `Option<string>`: the
  moves and `deleteFavorite`. The others apply the `|| DEFAULT_GROUP`
  fallback (`EffectiveGroup`).
- String `<` is lexicographic by character (`LabelLess`).
- `Array.prototype.sort` is stable, so sorting is a stable insertion sort
  under the same comparator.

**Behaviour of the code worth noting:**
- Renaming or creating a folder with a name that any folder of the group
  already uses is refused, wherever that folder sits in the tree.
- A command whose target is missing does nothing. There is no separate
  "not found" result.
- Reordering works on the persisted list, not on the probed one. A resource
  that the view hides because its probe failed is still a member of its
  sibling scope.
- The delete cascade walks folder links without a visited check. On a cycle
  reachable from the deleted folder, the recursion overflows the stack and
  nothing is saved. The model asks for a rank only on the links reachable
  from that folder (`Ranked` over a scope closed under child links).
  `CycleHasNoRank` shows that a reachable cycle admits no rank. A cycle
  elsewhere in the group does not stand in the way (`DeleteBesideCycle`).
- The match between a node and a scope record uses ids only when both carry
  one; otherwise it compares paths. A node's id is `i.id || i.filePath`,
  so a node always has one.

## Model

| member | source | states |
|---|---|---|
| Model.ParseUri | src/provider/FavoritesProvider.ts:167 | the scheme is the prefix of the text before the first ':' (all of it when there is none) |
| Provider.SchemeClass | src/provider/FavoritesProvider.ts:122 | the class `[A-Za-z0-9+-.]` is the RFC 3986 scheme characters plus ',' (the range from '+' to '.') |
| Provider.IsUriStringSpec | src/provider/FavoritesProvider.ts:122 | a path is a URI string exactly when it is a letter, then class characters, then "://" |
| Provider.ResourceStat | src/provider/FavoritesProvider.ts:163-233 | the item keeps path and group; it carries a parsed URI exactly when the path is a URI string; it has no id or parent |
| Provider.FavoriteItems | src/provider/FavoritesProvider.ts:53-80 | no more items than entries; every item belongs to the current group and is a folder or a resource whose probe found a file or a directory |
| Provider.FavoriteItemsSpec | src/provider/FavoritesProvider.ts:53-80 | only the current group's entries appear; every folder of the group is kept; a resource is kept exactly when its probe found a file or a directory |
| Provider.RootsAndChildrenPartition | src/provider/FavoritesProvider.ts:35-44 | an item is a root exactly when it has no parent id or no folder has that id; every non-root item is a child of the folder its parent id names; no item is both |
| Provider.ParentClosedHidden | src/provider/FavoritesProvider.ts:35-44 | when a set of folder ids holds the parent of every folder node whose id it holds, nothing filed under those folders is shown at any depth of the tree |
| Provider.TwoCycleHidden | src/provider/FavoritesProvider.ts:35-44 | in any list, two folders with non-empty ids that name each other as parent, with no other folder node carrying either id, are not roots, and neither they nor any item filed under either id is shown at any level |
| Provider.TwoCycleExample | src/provider/FavoritesProvider.ts:35-44 | in the list of just two folders b and c that name each other as parent, no item is a root |
| Provider.FavoriteItemsAppend | src/provider/FavoritesProvider.ts:53-80 | a shown entry of the group appended to the list is appended to the items, after the others |
| Provider.RootsAppend | src/provider/FavoritesProvider.ts:36-38 | an appended item that is a root is the last root |
| Provider.AppendedRootLast | src/provider/FavoritesProvider.ts:35-38 | an appended, shown entry with no parent is the last root item |
| Provider.ManualRootsLast | src/provider/FavoritesProvider.ts:35-38 | in MANUAL order, such an entry's node is the last node of the root level |
| Provider.Data2Resource | src/provider/FavoritesProvider.ts:235-332 | one node per item, in item order; each node shows the item's label, keeps its kind and parent id, and is collapsible exactly when the item is a directory |
| Provider.ToNode | src/provider/FavoritesProvider.ts:241-331 | a folder node is collapsible, has context 'favorite.folder', no URI and no command; a resource node shows its path's base name, opens on click exactly when it is not a directory, and gets a file URI when it has none |
| Provider.ContextValueRule | src/provider/FavoritesProvider.ts:235-331 | a resource node's context value has the 'uri.' prefix exactly when the item has a URI, and the '.dir' suffix exactly when it is a directory |
| Provider.SortedLevel | src/provider/FavoritesProvider.ts:82-110 | a sorted level shows exactly the nodes of its items; MANUAL keeps the list order; otherwise directories come first, then labels ascending for ASC and descending otherwise |
| Provider.SortedLevelCounts | src/provider/FavoritesProvider.ts:82-110 | sorting a level keeps the number of times each node appears |
| Provider.ChildSortOrder | src/provider/FavoritesProvider.ts:138 | a directory's children are never in manual order; MANUAL and ASC both sort ascending |
| Provider.ChildrenResources | src/provider/FavoritesProvider.ts:119-161 | the nodes are the listed children's nodes, each as often as it is listed; none is dropped for a failed probe; the children are ordered with directories first |
| Provider.GetChildren | src/provider/FavoritesProvider.ts:26-51 | no items gives an empty view; the root level shows the roots and a folder its children, each node as often as its item, in list order for MANUAL and sorted otherwise; any other node shows nothing unless it is a collapsible URI-backed resource |
| ItemOrder.ItemLabel | src/provider/FavoritesProvider.ts:112-117 | a folder is labelled by its name, a resource by its path's base name |
| ItemOrder.Compare | src/provider/FavoritesProvider.ts:89-109 | the result is -1, 0 or 1; a directory precedes a non-directory; within a class the order is by label, ascending or descending |
| ItemOrder.CompareConsistent | src/provider/FavoritesProvider.ts:89-109 | the comparator is antisymmetric, returns 0 exactly on equal (class, label) keys, and is transitive |
| ItemOrder.CompareMirror | src/provider/FavoritesProvider.ts:95-107 | ascending and descending are mirror orders within a class, and directories precede files in both |
| ItemOrder.StableSortMapPermutes | src/provider/FavoritesProvider.ts:89 | sorting keeps the multiset of any per-item view of the list |
| ItemOrder.StableSortCorrect | src/provider/FavoritesProvider.ts:89-109 | the sort returns a permutation of its input that is in comparator order and keeps the input order among equal keys |
| ItemOrder.SortItems | src/provider/FavoritesProvider.ts:82-110 | MANUAL returns the input; any other mode returns a sorted, stable permutation with directories first |
| ItemOrder.SortExample | src/provider/FavoritesProvider.ts:82-117 | ascending order over folders "B" and "A" and the file "a.txt" gives A, B, a.txt |
| FolderCommands.CreateFolder | src/command/folderCommands.ts:9-43 | the folder is saved exactly when the name is non-empty and no folder of the group has it; it is refused exactly when the name is taken; a saved list is the old one with the new root folder appended |
| FolderCommands.CreateFolderKeepsInvariants | src/command/folderCommands.ts:26-38 | creating keeps folder names unique in every group, and keeps folder ids unique when the new id is fresh |
| FolderCommands.CreatedFolderAtRoot | src/command/folderCommands.ts:31-38 | after a create, the root level of the view shows the new folder |
| FolderCommands.CreatedFolderLast | src/command/folderCommands.ts:31-38 | in MANUAL order the new folder is the last node of the root level |
| FolderCommands.RenameFolder | src/command/folderCommands.ts:45-86 | a non-folder node or a folder not found in the group is a no-op, and so is an empty answer or the target's own name; a taken name is refused exactly when the target is found and the answer is non-empty, differs from its name and is used in the group; a save happens exactly when such an answer is free in the group, and changes only the name of folders with the target's id |
| FolderCommands.RenameFolderRoundTrip | src/command/folderCommands.ts:57-81 | with unique folder ids and names, renaming a folder and then renaming it back restores the list exactly |
| FolderCommands.RenameFolderKeepsNamesUnique | src/command/folderCommands.ts:71-81 | a saved rename keeps folder names unique in the group, when folder ids are unique |
| FolderCommands.CollectDescendants | src/command/folderCommands.ts:111-121 | given a rank on the links reachable from the folder, the walk adds to the bucket exactly the ids reached from the folder through child-folder links of the current group |
| FolderCommands.DescendantsAreClosure | src/command/folderCommands.ts:111-118 | the collected ids contain the folder and every group folder whose parent they contain |
| FolderCommands.DescendantsAreLeast | src/command/folderCommands.ts:111-118 | every set that holds the folder and is closed under child links contains the collected ids |
| FolderCommands.CycleHasNoRank | src/command/folderCommands.ts:111-118 | a cycle of parent links among the group's folders that meets the walk's scope admits no rank on that scope |
| FolderCommands.LeafFolderRanked | src/command/folderCommands.ts:111-118 | a folder without child folders has a rank on its own scope, and its descendants are itself alone |
| FolderCommands.DeleteBesideCycle | src/command/folderCommands.ts:111-137 | deleting a root folder next to two folders that are each other's parent removes just that folder |
| FolderCommands.RemoveCollectedSpec | src/command/folderCommands.ts:123-137 | survivors keep their order; every entry that is not doomed keeps all its copies and a doomed one (a collected folder, or an entry whose parent was collected) keeps none; entries of other groups are all kept; no survivor of the group names a removed parent |
| FolderCommands.DeleteFolder | src/command/folderCommands.ts:88-142 | a non-folder node, a declined confirmation or an empty id change nothing; otherwise, given a rank on the links reachable from the folder, the saved list is the list without the folder's descendant closure and its members' children |
| AddToFavorites.Substr | src/command/addToFavorites.ts:26 | `substr` returns the rest of the string after the start, or the empty string past its end |
| AddToFavorites.StoredPath | src/command/addToFavorites.ts:16-26 | a non-file URI is stored as its text; a file is stored as its fsPath in a multi-root workspace, and otherwise as the suffix of its fsPath after the root path and one separator |
| AddToFavorites.StoredPathRelative | src/command/addToFavorites.ts:24-26 | in a single-root workspace, the root, a separator and the stored path give back the file's path |
| AddToFavorites.TargetFolder | src/command/addToFavorites.ts:30-47 | with no folders in the group the entry goes to the root; a dismissed pick cancels; "Add to root" ('') always yields the root, never a cancel; a non-empty picked id becomes the parent |
| AddToFavorites.AddToFavorites | src/command/addToFavorites.ts:8-74 | no argument and no editor is a no-op; a save appends one tagged resource entry with the stored path, the current group and the picked parent, only when no tagged entry with the same path, group and parent exists; otherwise the pick was cancelled or the entry exists |
| AddToFavorites.AddTwiceIsNoOp | src/command/addToFavorites.ts:49-59 | adding the same resource again with the same answers changes nothing |
| AddToFavorites.GroupsAfterAdd | src/command/addToFavorites.ts:76-78 | the groups setting is written exactly when the add saved an entry and the setting is missing or empty, and then holds the default group alone |
| DeleteFavorite.TargetOf | src/command/deleteFavorite.ts:19-29 | a folder node is ignored; a bare URI matches by fsPath for file URIs and by text otherwise; a node matches by its value, or by its URI's text when that URI is not a file URI, and carries its id and parent id |
| DeleteFavorite.Kept | src/command/deleteFavorite.ts:34-76 | folders and other groups' entries are kept; a group resource is dropped exactly when it matches by id (both have one) or else by path and parent |
| DeleteFavorite.DeleteFavorite | src/command/deleteFavorite.ts:8-80 | no argument and no editor, or a folder node, is a no-op; a delete never grows the list |
| DeleteFavorite.DeleteFavoriteSpec | src/command/deleteFavorite.ts:34-76 | survivors keep their order; an entry the filter keeps keeps all its copies and any other keeps none; folders and other groups' entries are all kept; a group resource goes exactly when it matches by id (both have one) or else by path and parent |
| DeleteFavorite.DeleteLastById | src/command/deleteFavorite.ts:43-45 | deleting by the id only the last entry carries removes exactly that entry |
| DeleteFavorite.DeleteUndoesAdd | src/command/deleteFavorite.ts:43-45 | deleting, by its node, a resource just added gives back the list from before the add |
| MoveScope.ScopeOf | src/command/moveUp.ts:21-34 | every scope record is a non-folder entry of the group with the node's parent, recorded with its own index |
| MoveScope.ScopeOfIncreasing | src/command/moveUp.ts:21-34 | the scope lists its entries in list order |
| MoveScope.ScopeOfComplete | src/command/moveUp.ts:21-34 | every in-scope entry has its record in the scope |
| MoveScope.BuildScope | src/command/moveUp.ts:21-34 | the loop builds exactly the scope of the loaded list |
| MoveScope.FoundTarget | src/command/moveUp.ts:36 | the found record is an in-scope entry matching the node (by id when both have one, by path otherwise), and no in-scope entry before it matches |
| MoveScope.SwappedSpec | src/command/moveUp.ts:56 | a swap exchanges the two entries, leaves all others in place, and undoes itself |
| MoveScope.SwappedPermutes | src/command/moveUp.ts:56 | a swap keeps the multiset of entries |
| MoveScope.Swap | src/command/moveUp.ts:56 | the array afterwards is the swapped list |
| MoveScope.SplicedSpec | src/command/moveToTop.ts:48-49 | the moved entry lands at the target index, the other entries keep their relative order, and positions outside the moved range are unchanged |
| MoveScope.SplicedPermutes | src/command/moveToTop.ts:48-49 | remove-and-reinsert keeps the multiset of entries |
| MoveScope.Splice | src/command/moveToTop.ts:48-49 | the array afterwards is the list with the entry taken out and reinserted |
| MoveUp.UpPlan | src/command/moveUp.ts:36-56 | a planned move stays in the list and moves the entry to a lower index |
| MoveUp.UpPlanWhen | src/command/moveUp.ts:36-52 | the command moves exactly when a scope record matches the node and the first match is not the first record |
| MoveUp.UpPlanMoves | src/command/moveUp.ts:36-54 | the moved entry is the first in-scope match, and it trades places with the nearest in-scope entry above it, skipping out-of-scope entries |
| MoveUp.MoveUp | src/command/moveUp.ts:8-59 | sortOrder becomes MANUAL exactly when a move is planned; the list is then swapped, and otherwise unchanged |
| MoveDown.DownPlan | src/command/moveDown.ts:36-56 | a planned move stays in the list and moves the entry to a higher index |
| MoveDown.DownPlanWhen | src/command/moveDown.ts:36-52 | the command moves exactly when a scope record matches the node and the first match is not the last record |
| MoveDown.DownPlanMoves | src/command/moveDown.ts:36-54 | the moved entry is the first in-scope match, and it trades places with the nearest in-scope entry below it |
| MoveDown.MoveDown | src/command/moveDown.ts:8-59 | sortOrder becomes MANUAL exactly when a move is planned; the list is then swapped, and otherwise unchanged |
| MoveDown.MoveUpThenDown | src/command/moveDown.ts:45-56 | after a move up, moving the same node down swaps the same two entries back and restores the list |
| MoveToTop.TopPlan | src/command/moveToTop.ts:36-49 | a planned move stays in the list and moves the entry to a lower index |
| MoveToTop.TopPlanWhen | src/command/moveToTop.ts:36-45 | the command moves exactly when a scope record matches the node and it is not the first record |
| MoveToTop.TopPlanMoves | src/command/moveToTop.ts:36-49 | the node's entry becomes the first in-scope entry, right before the former first member; nothing before it or after its old place moves; the rest keep their order |
| MoveToTop.MoveToTop | src/command/moveToTop.ts:8-52 | sortOrder becomes MANUAL exactly when a move is planned; the list is then spliced, and otherwise unchanged |
| MoveToBottom.BottomPlan | src/command/moveToBottom.ts:36-49 | a planned move stays in the list and moves the entry to a higher index |
| MoveToBottom.BottomPlanWhen | src/command/moveToBottom.ts:36-45 | the command moves exactly when a scope record matches the node and it is not the last record |
| MoveToBottom.BottomPlanMoves | src/command/moveToBottom.ts:36-49 | the node's entry becomes the last in-scope entry, right after the former last member; nothing before its old place or after the bottom index moves; the rest keep their order |
| MoveToBottom.MoveToBottom | src/command/moveToBottom.ts:8-52 | sortOrder becomes MANUAL exactly when a move is planned; the list is then spliced, and otherwise unchanged |

## Left out

- The VS Code plumbing is not modelled. This covers command registration, tree-item objects (only the fields the view and commands read are kept, in `Node`), `refresh`, tooltips and the warning messages.
- Persistence is left out: `configMgr.save` and `config.update`. A command returns the new list, and a move returns whether the sort mode becomes MANUAL. Save failures are not modelled.
- Prompts are not modelled: the input boxes, the confirmation dialog and the quick pick. Their answers are parameters.
- The active editor is a parameter.
- File-system and URI access are `Host` functions: `fs.stat`, `fs.readdir`, `workspace.fs.stat`, `workspace.fs.readDirectory`, `Uri.joinPath`, `path.join`, `path.basename` and `pathResolve`. For a plain path, a failed `fs.stat` reads as NEITHER and a failed `fs.readdir` as no entries, as in the code.
- A rejected `workspace.fs.stat` or `workspace.fs.readDirectory` on a URI string is not modelled. In the code nothing handles it, so the whole `getChildren` call rejects. The model treats the host's answer as always available.
- Promise ordering and `Promise.all` are not modelled. The probes are independent, so the results are taken in list order.
- Model.ParseUri: `Uri.parse` is modelled only for its scheme, its `toString()` and its `fsPath`. The last two come from the host, because `toString()` re-encodes the text (a space becomes `%20`) and need not give back the stored path. The path match of `deleteFavorite` for non-file URIs therefore compares against the host's string.
- The Windows form of the file URI built for plain paths is not modelled.
- `createFavoriteId`, `isMultiRoots`, `getSingleRootPath` and `getCurrentResources` are not part of this model. They are parameters, or the list passed in.
- `replaceArrayElements` is not part of this model. It is taken to exchange the two positions in place.
- FolderCommands.CollectDescendants: modelled only when the child-folder links reachable from the folder carry a rank (the `Ranked` requirement). On a reachable cycle the code recurses until the stack overflows and the command fails without saving; that failure is not modelled.
- FolderCommands.DeleteFolder: the same requirement, for the same reason.
- FolderCommands.CycleHasNoRank: only one direction is proved. That every acyclic reachable part has a rank is not proved; `LeafFolderRanked` builds one for a folder without child folders.
- MoveUp.MoveUp: the `find` and `findIndex` calls use the same test, so the model runs one search. The `!filteredArray.length` checks after a successful `find` can never fire and are not modelled.
- MoveDown.MoveDown: the same single search. Its unreachable length check is not modelled either.
- Label comparison is by character code, as JavaScript's `<` on strings. Code points beyond the basic plane, which JavaScript compares by UTF-16 unit, are not distinguished.

=== FILE: add_to_favorites.dfy ===
/** The list edit behind `favorites.addToFavorites`
    (src/command/addToFavorites.ts): compute the path to store, choose the
    target folder, skip duplicates, append. The quick pick's answer and the
    workspace layout are parameters. */
module AddToFavorites {
  import opened Common
  import opened Model
  import FolderCommands

  /** The workspace facts the command reads: `isMultiRoots()` and
      `getSingleRootPath()`. */
  datatype Workspace = Workspace(multiRoot: bool, singleRootPath: string)

  /** `s.substr(start)` for a non-negative start: the rest of the string from
      `start`, or the empty string when `start` is past the end. */
  function Substr(s: string, start: nat): (r: string)
    ensures start <= |s| ==> s == s[..start] + r
    ensures start >= |s| ==> r == ""
  {
    if start <= |s| then s[start..] else ""
  }

  /** The path written into the new entry. */
  function StoredPath(arg: Uri, ws: Workspace): (p: string)
    ensures arg.scheme != "file" ==> p == arg.text
    ensures arg.scheme == "file" && ws.multiRoot ==> p == arg.fsPath
    ensures arg.scheme == "file" && !ws.multiRoot ==> |p| == if |arg.fsPath| > |ws.singleRootPath| then |arg.fsPath| - |ws.singleRootPath| - 1 else 0
    ensures arg.scheme == "file" && !ws.multiRoot && |arg.fsPath| > |ws.singleRootPath| ==>
              arg.fsPath == arg.fsPath[..|ws.singleRootPath| + 1] + p
  {
    if arg.scheme != "file" then arg.text
    else if ws.multiRoot then arg.fsPath
    else Substr(arg.fsPath, |ws.singleRootPath| + 1)
  }

  /** In a single-root workspace, a file below the root is stored relative to
      it: the root, one separator and the stored path give back the full
      path. */
  lemma {:induction false} StoredPathRelative(arg: Uri, ws: Workspace, sep: char, rel: string)
    requires arg.scheme == "file" && !ws.multiRoot
    requires arg.fsPath == ws.singleRootPath + [sep] + rel
    ensures StoredPath(arg, ws) == rel
    ensures ws.singleRootPath + [sep] + StoredPath(arg, ws) == arg.fsPath
  {
    assert arg.fsPath[|ws.singleRootPath| + 1..] == rel;
  }

  /** The target folder: `Some(parent)` to go on with parent id `parent`,
      `None` when the pick was cancelled. The pick is offered only when the
      group has folders; `pick` is the picked entry's id ('' for "Add to
      root"), `None` if dismissed. */
  function TargetFolder(entries: seq<Entry>, group: string, pick: Option<string>): (r: Option<Option<string>>)
    ensures |FolderCommands.GroupFolders(entries, group)| == 0 ==> r == Some(None)
    ensures |FolderCommands.GroupFolders(entries, group)| > 0 && pick.None? ==> r == None
    ensures r.Some? ==> !Truthy(r.value) ==> r.value == None
    ensures pick == Some("") ==> r == Some(None)
    ensures r.Some? && r.value.Some? ==> pick == r.value
    ensures |FolderCommands.GroupFolders(entries, group)| > 0 && Truthy(pick) ==> r == Some(pick)
  {
    if |FolderCommands.GroupFolders(entries, group)| == 0 then Some(None)
    else if pick.None? then None
    else Some(Normalize(pick))
  }

  /** The duplicate test: an entry typed 'resource' with the same path, group
      and parent. Legacy entries without a type never count. */
  predicate AlreadyFavorite(entries: seq<Entry>, path: string, group: string, parentId: Option<string>)
  {
    exists e :: e in entries && e.ResourceEntry? && e.tagged && e.filePath == path && e.group == group && e.parentId == parentId
  }

  /** `favorites.addToFavorites`. `arg` is the command argument, `active` the
      active editor's document (used when there is no argument), `newId` the
      id `createFavoriteId` returns. */
  function AddToFavorites(entries: seq<Entry>, arg: Option<Uri>, active: Option<Uri>, ws: Workspace,
                          configuredGroup: Option<string>, defaultGroup: string,
                          pick: Option<string>, newId: string): (r: Outcome)
    ensures !r.DuplicateName?
    ensures arg.None? && active.None? ==> r == NoOp
    ensures r.Saved? ==>
              var a := if arg.Some? then arg.value else active.value;
              var group := EffectiveGroup(configuredGroup, defaultGroup);
              var target := TargetFolder(entries, group, pick);
              target.Some? &&
              !AlreadyFavorite(entries, StoredPath(a, ws), group, target.value) &&
              r.entries == entries + [ResourceEntry(Some(newId), StoredPath(a, ws), group, target.value, true)]
    ensures r.NoOp? && (arg.Some? || active.Some?) ==>
              var a := if arg.Some? then arg.value else active.value;
              var group := EffectiveGroup(configuredGroup, defaultGroup);
              var target := TargetFolder(entries, group, pick);
              target.None? || AlreadyFavorite(entries, StoredPath(a, ws), group, target.value)
  {
    if arg.None? && active.None? then NoOp
    else
      var a := if arg.Some? then arg.value else active.value;
      var path := StoredPath(a, ws);
      var group := EffectiveGroup(configuredGroup, defaultGroup);
      match TargetFolder(entries, group, pick)
      case None => NoOp
      case Some(parentId) =>
        if AlreadyFavorite(entries, path, group, parentId) then NoOp
        else Saved(entries + [ResourceEntry(Some(newId), path, group, parentId, true)])
  }

  /** Adding does not change the group's folders, so the same pick is
      offered again. */
  lemma {:induction false} AddKeepsFolders(entries: seq<Entry>, e: Entry, group: string)
    requires e.ResourceEntry?
    ensures FolderCommands.GroupFolders(entries + [e], group) == FolderCommands.GroupFolders(entries, group)
  {
    var keep := (x: Entry) => FolderCommands.IsGroupFolder(x, group);
    FilterAppend(entries, [e], keep);
    assert Filter([e], keep) == [] by { assert [e][1..] == []; }
    assert Filter(entries, keep) + [] == Filter(entries, keep);
  }

  /** Adding the same resource a second time, with the same answers, leaves
      the list as the first add made it. */
  lemma {:induction false} AddTwiceIsNoOp(entries: seq<Entry>, arg: Option<Uri>, active: Option<Uri>, ws: Workspace,
                       configuredGroup: Option<string>, defaultGroup: string,
                       pick: Option<string>, newId: string, newId': string)
    requires AddToFavorites(entries, arg, active, ws, configuredGroup, defaultGroup, pick, newId).Saved?
    ensures AddToFavorites(AddToFavorites(entries, arg, active, ws, configuredGroup, defaultGroup, pick, newId).entries,
                           arg, active, ws, configuredGroup, defaultGroup, pick, newId') == NoOp
  {
    var a := if arg.Some? then arg.value else active.value;
    var group := EffectiveGroup(configuredGroup, defaultGroup);
    var parentId := TargetFolder(entries, group, pick).value;
    var added := ResourceEntry(Some(newId), StoredPath(a, ws), group, parentId, true);
    var next := entries + [added];
    AddKeepsFolders(entries, added, group);
    assert TargetFolder(next, group, pick) == Some(parentId);
    assert added in next;
    assert AlreadyFavorite(next, StoredPath(a, ws), group, parentId);
  }

  /** Once an add has run with outcome `added`, the `groups` setting becomes
      `[defaultGroup]` when the add saved and the setting is missing or
      empty; `None` means untouched (an add that saved nothing returns
      before this step). */
  function GroupsAfterAdd(added: Outcome, groups: Option<seq<string>>, defaultGroup: string): (r: Option<seq<string>>)
    ensures r.Some? <==> added.Saved? && (groups.None? || |groups.value| == 0)
    ensures r.Some? ==> r.value == [defaultGroup]
  {
    if added.Saved? && (groups.None? || |groups.value| == 0) then Some([defaultGroup]) else None
  }
}

=== FILE: common.dfy ===
/** Small helpers shared by every module: an Option type and the JavaScript
    truthiness tests the extension applies to optional strings. */
module Common {

  datatype Option<+T> = None | Some(value: T)

  /** `if (s)` on an optional string: defined and not the empty string. */
  predicate Truthy(o: Option<string>)
  {
    o.Some? && o.value != ""
  }

  /** `s || undefined`: an empty string is read as absent. */
  function Normalize(o: Option<string>): (r: Option<string>)
    ensures Truthy(o) ==> r == o
    ensures !Truthy(o) ==> r == None
    ensures Truthy(r) <==> Truthy(o)
  {
    if Truthy(o) then o else None
  }

  /** `(configMgr.get('currentGroup') as string) || DEFAULT_GROUP`. */
  function EffectiveGroup(configured: Option<string>, defaultGroup: string): (g: string)
    ensures Truthy(configured) ==> g == configured.value
    ensures !Truthy(configured) ==> g == defaultGroup
  {
    if Truthy(configured) then configured.value else defaultGroup
  }

  /** `Array.prototype.filter`: the elements satisfying `keep`, in order. */
  function Filter<T(!new)>(s: seq<T>, keep: T -> bool): (r: seq<T>)
    ensures |r| <= |s|
    ensures forall x :: x in r <==> x in s && keep(x)
  {
    if s == [] then []
    else
      assert s == [s[0]] + s[1..];
      (if keep(s[0]) then [s[0]] else []) + Filter(s[1..], keep)
  }

  /** Filtering keeps every occurrence of a kept value and no other. */
  lemma {:induction false} FilterCount<T(!new)>(s: seq<T>, keep: T -> bool)
    ensures forall x :: multiset(Filter(s, keep))[x] == if keep(x) then multiset(s)[x] else 0
  {
    if s != [] {
      FilterCount(s[1..], keep);
      assert s == [s[0]] + s[1..];
    }
  }

  /** Filtering distributes over concatenation. */
  lemma {:induction false} FilterAppend<T(!new)>(a: seq<T>, b: seq<T>, keep: T -> bool)
    ensures Filter(a + b, keep) == Filter(a, keep) + Filter(b, keep)
  {
    if a == [] {
      assert a + b == b;
    } else {
      var head := if keep(a[0]) then [a[0]] else [];
      FilterAppend(a[1..], b, keep);
      calc {
        Filter(a + b, keep);
        { assert (a + b)[0] == a[0] && (a + b)[1..] == a[1..] + b; }
        head + Filter(a[1..] + b, keep);
        head + (Filter(a[1..], keep) + Filter(b, keep));
        (head + Filter(a[1..], keep)) + Filter(b, keep);
        Filter(a, keep) + Filter(b, keep);
      }
    }
  }

  /** Filtering with a test every element passes changes nothing. */
  lemma {:induction false} FilterKeepsAll<T(!new)>(s: seq<T>, keep: T -> bool)
    requires forall x :: x in s ==> keep(x)
    ensures Filter(s, keep) == s
  {
    if s != [] {
      FilterKeepsAll(s[1..], keep);
      assert s == [s[0]] + s[1..];
    }
  }

  /** `r` can be obtained from `s` by deleting elements (order kept). */
  ghost predicate IsSubsequence<T>(r: seq<T>, s: seq<T>)
    decreases |s|
  {
    if r == [] then true
    else if s == [] then false
    else if r[0] == s[0] then IsSubsequence(r[1..], s[1..])
    else IsSubsequence(r, s[1..])
  }

  /** Filtering keeps the survivors in their original order. */
  lemma {:induction false} FilterIsSubsequence<T(!new)>(s: seq<T>, keep: T -> bool)
    ensures IsSubsequence(Filter(s, keep), s)
  {
    if s != [] {
      var rest := Filter(s[1..], keep);
      FilterIsSubsequence(s[1..], keep);
      if keep(s[0]) {
        var r := [s[0]] + rest;
        assert Filter(s, keep) == r;
        assert r[0] == s[0] && r[1..] == rest;
      } else {
        assert Filter(s, keep) == rest;
        if rest != [] {
          assert rest[0] in rest;
          assert keep(rest[0]);
          assert rest[0] != s[0];
        }
      }
    }
  }

  /** `Array.prototype.findIndex`: the first index whose element satisfies
      `p`, if any. */
  function FindIndex<T>(s: seq<T>, p: T -> bool): (r: Option<nat>)
    ensures r.Some? ==> r.value < |s| && p(s[r.value]) && forall j :: 0 <= j < r.value ==> !p(s[j])
    ensures r.None? ==> forall j :: 0 <= j < |s| ==> !p(s[j])
  {
    if s == [] then None
    else if p(s[0]) then Some(0)
    else
      match FindIndex(s[1..], p)
      case None => None
      case Some(k) => Some(k + 1)
  }

  /** `Array.prototype.map`. */
  function Map<T, U>(s: seq<T>, f: T -> U): (r: seq<U>)
    ensures |r| == |s|
    ensures forall k :: 0 <= k < |s| ==> r[k] == f(s[k])
  {
    seq(|s|, k requires 0 <= k < |s| => f(s[k]))
  }

  /** Mapping with a function that does not change the filter's verdict
      commutes with the filter. */
  lemma {:induction false} FilterMapCommute<T(!new), U(!new)>(s: seq<T>, f: T -> U, keepT: T -> bool, keepU: U -> bool)
    requires forall x :: keepU(f(x)) == keepT(x)
    ensures Filter(Map(s, f), keepU) == Map(Filter(s, keepT), f)
  {
    if s != [] {
      FilterMapCommute(s[1..], f, keepT, keepU);
      var m := Map(s, f);
      var tail := Filter(s[1..], keepT);
      var head := if keepT(s[0]) then [s[0]] else [];
      var mappedHead := if keepT(s[0]) then [f(s[0])] else [];
      assert m[0] == f(s[0]) && m[1..] == Map(s[1..], f) by {
        assert forall k :: 0 <= k < |s| - 1 ==> m[1..][k] == f(s[1..][k]);
      }
      assert Map(head, f) == mappedHead;
      calc {
        Filter(m, keepU);
        mappedHead + Filter(m[1..], keepU);
        mappedHead + Filter(Map(s[1..], f), keepU);
        Map(head, f) + Map(tail, f);
        { MapAppend(head, tail, f); }
        Map(head + tail, f);
        { assert Filter(s, keepT) == head + tail; }
        Map(Filter(s, keepT), f);
      }
    }
  }

  /** Mapping distributes over concatenation. */
  lemma {:induction false} MapAppend<T, U>(a: seq<T>, b: seq<T>, f: T -> U)
    ensures Map(a + b, f) == Map(a, f) + Map(b, f)
  {
  }

  /** Mapping with a function that does not change `p` does not move the
      first match. */
  lemma {:induction false} FindIndexMap<T, U>(s: seq<T>, f: T -> U, p: T -> bool, q: U -> bool)
    requires forall x :: q(f(x)) == p(x)
    ensures FindIndex(Map(s, f), q) == FindIndex(s, p)
  {
    if s != [] {
      FindIndexMap(s[1..], f, p, q);
      assert Map(s, f)[1..] == Map(s[1..], f);
    }
  }

  /** A match with no match before it is the one `FindIndex` returns. */
  lemma {:induction false} FindIndexIs<T>(s: seq<T>, p: T -> bool, k: nat)
    requires k < |s| && p(s[k])
    requires forall j :: 0 <= j < k ==> !p(s[j])
    ensures FindIndex(s, p) == Some(k)
  {
  }
}

=== FILE: delete_favorite.dfy ===
/** The list edit behind `favorites.deleteFavorite`
    (src/command/deleteFavorite.ts): the target is a tree node or a URI, and
    every matching resource entry of the current group is filtered out. */
module DeleteFavorite {
  import opened Common
  import opened Model
  import AddToFavorites

  /** The command's argument: a tree node, or a URI from the explorer or the
      active editor. */
  datatype DeleteArg = NodeArg(node: Node) | UriArg(uri: Uri)

  /** What the filter compares against: whether the target's URI has the
      'file' scheme, the path to match (`None` when the argument offers none,
      which matches no entry), and the target's id and parent id (absent for
      a bare URI). */
  datatype Target = Target(fileScheme: bool, path: Option<string>, id: Option<string>, parentId: Option<string>)

  /** The scheme of a node's `resourceUri`: its URI's, or 'file' for a
      resource node built without one (`Uri.file(value)`). */
  function NodeScheme(n: Node): string
  {
    if n.uri.Some? then n.uri.value.scheme else "file"
  }

  /** The target read off the argument; `None` for a folder node, which the
      command ignores. A bare URI matches by its `fsPath` when it is a file
      URI and by its text otherwise. A file node matches by its `value`
      (a node has no `fsPath` of its own, so an empty `value` matches
      nothing); any other node by its URI's text. */
  function TargetOf(arg: DeleteArg): (t: Option<Target>)
    ensures t.None? <==> arg.NodeArg? && arg.node.kind == Folder
    ensures arg.UriArg? ==> t == Some(Target(arg.uri.scheme == "file",
                                             Some(if arg.uri.scheme == "file" then arg.uri.fsPath else arg.uri.text),
                                             None, None))
    ensures t.Some? && arg.NodeArg? ==> t.value.id == arg.node.id && t.value.parentId == arg.node.parentId
    ensures t.Some? && arg.NodeArg? ==> (t.value.fileScheme <==> NodeScheme(arg.node) == "file")
    ensures t.Some? && arg.NodeArg? && t.value.fileScheme ==> t.value.path == Normalize(Some(arg.node.value))
    ensures t.Some? && arg.NodeArg? && !t.value.fileScheme ==> t.value.path == Some(arg.node.uri.value.text)
  {
    match arg
    case UriArg(u) =>
      Some(Target(u.scheme == "file", Some(if u.scheme == "file" then u.fsPath else u.text), None, None))
    case NodeArg(n) =>
      if n.kind == Folder then None
      else if NodeScheme(n) == "file" then Some(Target(true, Normalize(Some(n.value)), n.id, n.parentId))
      else Some(Target(false, Some(n.uri.value.text), n.id, n.parentId))
  }

  /** The path test: a file target matches the stored path as written or
      resolved; any other target matches the URI text exactly. */
  predicate SamePath(host: Host, filePath: string, t: Target)
  {
    match t.path
    case None => false
    case Some(path) =>
      if t.fileScheme then filePath == path || host.pathResolve(filePath) == path
      else filePath == path
  }

  /** The filter predicate: `true` keeps the entry. `group` is the raw
      `currentGroup` setting, with no default applied. */
  predicate Kept(host: Host, e: Entry, group: Option<string>, t: Target)
    ensures e.FolderEntry? || Some(e.group) != group ==> Kept(host, e, group, t)
    ensures e.ResourceEntry? && Some(e.group) == group ==>
              (!Kept(host, e, group, t) <==>
                 if Truthy(t.id) && Truthy(e.id) then e.id == t.id
                 else SamePath(host, e.filePath, t) && e.parentId == t.parentId)
  {
    if e.FolderEntry? then true
    else if Some(e.group) != group then true
    else if Truthy(t.id) && Truthy(e.id) then e.id.value != t.id.value
    else !(SamePath(host, e.filePath, t) && e.parentId == t.parentId)
  }

  /** `favorites.deleteFavorite`; `active` is the active editor's document,
      used when there is no argument. */
  function DeleteFavorite(host: Host, entries: seq<Entry>, group: Option<string>,
                          arg: Option<DeleteArg>, active: Option<Uri>): (r: Outcome)
    ensures !r.DuplicateName?
    ensures arg.None? && active.None? ==> r == NoOp
    ensures arg.Some? && arg.value.NodeArg? && arg.value.node.kind == Folder ==> r == NoOp
    ensures r.Saved? ==> |r.entries| <= |entries|
  {
    if arg.None? && active.None? then NoOp
    else
      var a := if arg.Some? then arg.value else UriArg(active.value);
      match TargetOf(a)
      case None => NoOp
      case Some(t) => Saved(Filter(entries, (e: Entry) => Kept(host, e, group, t)))
  }

  /** The delete keeps survivors in order and with every copy, never removes
      a folder or an entry of another group, and removes an entry of the group exactly when
      it matches the target: by id when both carry one, by path and parent
      otherwise. */
  lemma {:induction false} DeleteFavoriteSpec(host: Host, entries: seq<Entry>, group: Option<string>, a: DeleteArg)
    requires TargetOf(a).Some?
    ensures var r := DeleteFavorite(host, entries, group, Some(a), None);
            var t := TargetOf(a).value;
            r.Saved? &&
            IsSubsequence(r.entries, entries) &&
            (forall e: Entry :: multiset(r.entries)[e] == if Kept(host, e, group, t) then multiset(entries)[e] else 0) &&
            (forall e: Entry :: e.FolderEntry? || Some(e.group) != group ==>
               multiset(r.entries)[e] == multiset(entries)[e]) &&
            (forall e: Entry :: e in entries && e.ResourceEntry? && Some(e.group) == group ==>
               (e !in r.entries <==>
                  if Truthy(t.id) && Truthy(e.id) then e.id.value == t.id.value
                  else SamePath(host, e.filePath, t) && e.parentId == t.parentId))
  {
    var t := TargetOf(a).value;
    var keep := (e: Entry) => Kept(host, e, group, t);
    FilterIsSubsequence(entries, keep);
    FilterCount(entries, keep);
  }

  /** Deleting by a node whose id only the last entry carries removes that
      entry and keeps the others, provided each resource entry of the group
      before it has a truthy id. */
  lemma {:induction false} DeleteLastById(host: Host, entries: seq<Entry>, group: string, added: Entry, node: Node)
    requires node.kind == Resource && Truthy(node.id)
    requires added.ResourceEntry? && added.group == group && added.id == node.id
    requires forall e :: e in entries && e.ResourceEntry? && e.group == group ==> Truthy(e.id) && e.id != node.id
    ensures DeleteFavorite(host, entries + [added], Some(group), Some(NodeArg(node)), None) == Saved(entries)
  {
    var t := TargetOf(NodeArg(node)).value;
    assert t.id == node.id;
    var keep := (e: Entry) => Kept(host, e, Some(group), t);
    assert !keep(added);
    forall e | e in entries ensures keep(e) {
      if e.ResourceEntry? && e.group == group {
        assert Truthy(e.id) && e.id != node.id;
      }
    }
    FilterAppend(entries, [added], keep);
    assert Filter([added], keep) == [] by { assert [added][1..] == []; }
    FilterKeepsAll(entries, keep);
  }

  /** Deleting, by its node, a resource just added removes exactly that
      entry, provided every resource entry of the group carries a truthy id
      other than the new one. */
  lemma {:induction false} DeleteUndoesAdd(host: Host, entries: seq<Entry>, uri: Uri, ws: AddToFavorites.Workspace,
                        group: string, pick: Option<string>, newId: string, node: Node)
    requires newId != ""
    requires forall e :: e in entries && e.ResourceEntry? && e.group == group ==> Truthy(e.id) && e.id.value != newId
    requires AddToFavorites.AddToFavorites(entries, Some(uri), None, ws, Some(group), group, pick, newId).Saved?
    requires node.kind == Resource && node.id == Some(newId)
    ensures DeleteFavorite(host, AddToFavorites.AddToFavorites(entries, Some(uri), None, ws, Some(group), group, pick, newId).entries,
                           Some(group), Some(NodeArg(node)), None)
            == Saved(entries)
  {
    var added := AddToFavorites.AddToFavorites(entries, Some(uri), None, ws, Some(group), group, pick, newId).entries;
    assert added == entries + [added[|entries|]];
    DeleteLastById(host, entries, group, added[|entries|], node);
  }
}

=== FILE: folder_commands.dfy ===
/** The list edits behind the folder commands (src/command/folderCommands.ts):
    create a folder, rename it, delete it with everything under it. The input
    box, the confirmation dialog and saving are outside: a prompt's answer is
    a parameter, and the new list is returned. */
module FolderCommands {
  import opened Common
  import opened Model
  import Provider

  predicate IsGroupFolder(e: Entry, group: string)
  {
    e.FolderEntry? && e.group == group
  }

  /** The folders of the current group, at any depth. */
  function GroupFolders(entries: seq<Entry>, group: string): seq<Entry>
  {
    Filter(entries, (e: Entry) => IsGroupFolder(e, group))
  }

  /** `folders.some((folder) => folder.name === name)`: the check is across
      the whole group, not only among siblings. */
  predicate NameTaken(entries: seq<Entry>, group: string, name: string)
  {
    exists f :: f in entries && IsGroupFolder(f, group) && f.name == name
  }

  /** No two folders of `group` share a name. */
  ghost predicate UniqueFolderNames(entries: seq<Entry>, group: string)
  {
    forall i, j :: 0 <= i < j < |entries| && IsGroupFolder(entries[i], group) && IsGroupFolder(entries[j], group)
      ==> entries[i].name != entries[j].name
  }

  /** No two folders share an id. */
  ghost predicate UniqueFolderIds(entries: seq<Entry>)
  {
    forall i, j :: 0 <= i < j < |entries| && entries[i].FolderEntry? && entries[j].FolderEntry?
      ==> entries[i].folderId != entries[j].folderId
  }

  // ---------------------------------------------------------------------
  // createFolder

  /** `createFolder` with the answer `name` of the input box (None when
      cancelled) and the id `newId` that `createFavoriteId` returns. */
  function CreateFolder(entries: seq<Entry>, group: string, name: Option<string>, newId: string): (r: Outcome)
    ensures r.Saved? <==> Truthy(name) && !NameTaken(entries, group, name.value)
    ensures r.DuplicateName? <==> Truthy(name) && NameTaken(entries, group, name.value)
    ensures r.Saved? ==> |r.entries| == |entries| + 1 && r.entries[..|entries|] == entries
    ensures r.Saved? ==> r.entries[|entries|] == FolderEntry(newId, name.value, group, None)
  {
    if !Truthy(name) then NoOp
    else if NameTaken(entries, group, name.value) then DuplicateName
    else Saved(entries + [FolderEntry(newId, name.value, group, None)])
  }

  /** Creating a folder keeps folder names unique in every group, and keeps
      folder ids unique when the new id is fresh. */
  lemma {:induction false} CreateFolderKeepsInvariants(entries: seq<Entry>, group: string, name: Option<string>, newId: string, g: string)
    requires CreateFolder(entries, group, name, newId).Saved?
    ensures UniqueFolderNames(entries, g) ==> UniqueFolderNames(CreateFolder(entries, group, name, newId).entries, g)
    ensures UniqueFolderIds(entries) && (forall e :: e in entries && e.FolderEntry? ==> e.folderId != newId)
            ==> UniqueFolderIds(CreateFolder(entries, group, name, newId).entries)
  {
    var r := CreateFolder(entries, group, name, newId).entries;
    var n := |entries|;
    if UniqueFolderNames(entries, g) {
      forall i, j | 0 <= i < j < |r| && IsGroupFolder(r[i], g) && IsGroupFolder(r[j], g)
        ensures r[i].name != r[j].name
      {
        if j == n {
          assert r[i] == entries[i];
          assert entries[i] in GroupFolders(entries, group);
        } else {
          assert r[i] == entries[i] && r[j] == entries[j];
        }
      }
    }
    if UniqueFolderIds(entries) && (forall e :: e in entries && e.FolderEntry? ==> e.folderId != newId) {
      forall i, j | 0 <= i < j < |r| && r[i].FolderEntry? && r[j].FolderEntry?
        ensures r[i].folderId != r[j].folderId
      {
        assert r[i] == entries[i];
        if j < n { assert r[j] == entries[j]; }
      }
    }
  }

  /** The view shows a newly created folder at the root level: it has no
      parent, and folders are never dropped by the probe filter. */
  lemma {:induction false} CreatedFolderAtRoot(host: Host, entries: seq<Entry>, configuredGroup: Option<string>,
                                               defaultGroup: string, sort: string, name: Option<string>, newId: string)
    requires CreateFolder(entries, EffectiveGroup(configuredGroup, defaultGroup), name, newId).Saved?
    ensures Provider.ToNode(host, FolderItem(name.value, EffectiveGroup(configuredGroup, defaultGroup), newId, None), "resource")
            in Provider.GetChildren(host, CreateFolder(entries, EffectiveGroup(configuredGroup, defaultGroup), name, newId).entries,
                                    configuredGroup, defaultGroup, sort, None)
  {
    var group := EffectiveGroup(configuredGroup, defaultGroup);
    var next := CreateFolder(entries, group, name, newId).entries;
    var e := FolderEntry(newId, name.value, group, None);
    var x := FolderItem(name.value, group, newId, None);
    assert e in next;
    Provider.FavoriteItemsSpec(host, next, group);
    var favorites := Provider.FavoriteItems(host, next, group);
    assert Provider.EntryItem(host, group, e) == x;
    assert x in favorites;
    Provider.RootsAndChildrenPartition(favorites, x);
    assert x in Provider.Roots(favorites);
  }

  /** In manual order the new folder is the last node of the root level, as
      it is the last entry of the saved list. */
  lemma {:induction false} CreatedFolderLast(host: Host, entries: seq<Entry>, configuredGroup: Option<string>,
                                             defaultGroup: string, sort: string, name: Option<string>, newId: string)
    requires CreateFolder(entries, EffectiveGroup(configuredGroup, defaultGroup), name, newId).Saved?
    requires sort == "MANUAL"
    ensures var r := Provider.GetChildren(host, CreateFolder(entries, EffectiveGroup(configuredGroup, defaultGroup), name, newId).entries,
                                          configuredGroup, defaultGroup, sort, None);
            |r| > 0 && r[|r| - 1] == Provider.ToNode(host, FolderItem(name.value, EffectiveGroup(configuredGroup, defaultGroup), newId, None), "resource")
  {
    var group := EffectiveGroup(configuredGroup, defaultGroup);
    var e := FolderEntry(newId, name.value, group, None);
    assert CreateFolder(entries, group, name, newId) == Saved(entries + [e]);
    assert Provider.EntryItem(host, group, e) == FolderItem(name.value, group, newId, None);
    Provider.ManualRootsLast(host, entries, configuredGroup, defaultGroup, e);
  }

  // ---------------------------------------------------------------------
  // renameFolder

  /** One step of the `map` of `renameFolder`. */
  function RenameOne(e: Entry, id: string, name: string): Entry
  {
    if e.FolderEntry? && e.folderId == id then e.(name := name) else e
  }

  /** The `map` of `renameFolder`: every folder with id `id` gets `name`. */
  function RenameIn(entries: seq<Entry>, id: string, name: string): (r: seq<Entry>)
    ensures |r| == |entries|
    ensures forall k :: 0 <= k < |entries| ==> r[k] == RenameOne(entries[k], id, name)
  {
    Map(entries, (e: Entry) => RenameOne(e, id, name))
  }

  /** The `find` of `renameFolder`: the folder whose id is the node's. */
  function Targets(value: Node): Entry -> bool
  {
    (f: Entry) => f.FolderEntry? && Some(f.folderId) == value.id
  }

  /** `renameFolder` on the tree node `value` with the answer `newName` of
      the input box. */
  function RenameFolder(entries: seq<Entry>, group: string, value: Node, newName: Option<string>): (r: Outcome)
    ensures value.kind != Folder ==> r == NoOp
    ensures (forall f :: f in entries && IsGroupFolder(f, group) ==> !Targets(value)(f)) ==> r == NoOp
    ensures r.Saved? ==> Truthy(newName) && !NameTaken(entries, group, newName.value)
    ensures r.Saved? ==>
              var found := FindIndex(GroupFolders(entries, group), Targets(value));
              found.Some? && GroupFolders(entries, group)[found.value].name != newName.value
    ensures r.Saved? ==> |r.entries| == |entries|
    ensures r.Saved? ==> forall k :: 0 <= k < |entries| ==>
              r.entries[k] == entries[k] ||
              (entries[k].FolderEntry? && Some(entries[k].folderId) == value.id
               && r.entries[k] == entries[k].(name := newName.value))
    ensures r.DuplicateName? ==> Truthy(newName) && NameTaken(entries, group, newName.value)
    ensures r.DuplicateName? <==>
              var found := FindIndex(GroupFolders(entries, group), Targets(value));
              value.kind == Folder && found.Some? && Truthy(newName) &&
              newName.value != GroupFolders(entries, group)[found.value].name && NameTaken(entries, group, newName.value)
    ensures r.Saved? <==>
              var found := FindIndex(GroupFolders(entries, group), Targets(value));
              value.kind == Folder && found.Some? && Truthy(newName) &&
              newName.value != GroupFolders(entries, group)[found.value].name && !NameTaken(entries, group, newName.value)
  {
    if value.kind != Folder then NoOp
    else
      var folders := GroupFolders(entries, group);
      match FindIndex(folders, Targets(value))
      case None => NoOp
      case Some(k) =>
        var target := folders[k];
        assert target in folders && Targets(value)(target);
        if !Truthy(newName) || newName.value == target.name then NoOp
        else if NameTaken(entries, group, newName.value) then DuplicateName
        else Saved(RenameIn(entries, target.folderId, newName.value))
  }

  /** Renaming keeps the group's folders (with their new names) in order. */
  lemma {:induction false} GroupFoldersRenamed(entries: seq<Entry>, group: string, id: string, name: string)
    ensures GroupFolders(RenameIn(entries, id, name), group) == RenameIn(GroupFolders(entries, group), id, name)
  {
    var keep := (e: Entry) => IsGroupFolder(e, group);
    FilterMapCommute(entries, (e: Entry) => RenameOne(e, id, name), keep, keep);
  }

  /** With unique folder ids, `RenameIn` changes the one folder with that id. */
  lemma {:induction false} RenameOnlyTarget(entries: seq<Entry>, id: string, name: string, q: nat)
    requires UniqueFolderIds(entries)
    requires q < |entries| && entries[q].FolderEntry? && entries[q].folderId == id
    ensures RenameIn(entries, id, name)[q] == entries[q].(name := name)
    ensures forall m :: 0 <= m < |entries| && m != q ==> RenameIn(entries, id, name)[m] == entries[m]
  {
    forall m | 0 <= m < |entries| && m != q ensures RenameIn(entries, id, name)[m] == entries[m] {
      if entries[m].FolderEntry? {
        if m < q { assert entries[m].folderId != entries[q].folderId; }
        else { assert entries[q].folderId != entries[m].folderId; }
      }
    }
  }

  /** Renaming the folder `entries[q]` away from `oldName` frees that name in
      its group, and renaming it back restores the list. */
  lemma {:induction false} RenameBack(entries: seq<Entry>, group: string, q: nat, newName: string)
    requires UniqueFolderIds(entries) && UniqueFolderNames(entries, group)
    requires q < |entries| && IsGroupFolder(entries[q], group) && newName != entries[q].name
    ensures !NameTaken(RenameIn(entries, entries[q].folderId, newName), group, entries[q].name)
    ensures RenameIn(RenameIn(entries, entries[q].folderId, newName), entries[q].folderId, entries[q].name) == entries
  {
    var id := entries[q].folderId;
    var oldName := entries[q].name;
    var r := RenameIn(entries, id, newName);
    RenameOnlyTarget(entries, id, newName, q);
    assert RenameIn(r, id, oldName) == entries by {
      forall m | 0 <= m < |entries| ensures RenameIn(r, id, oldName)[m] == entries[m] {
        if m != q { assert r[m] == entries[m]; }
      }
    }
  }

  /** After a rename the `find` of `renameFolder` lands on the same folder,
      now carrying the new name. */
  lemma {:induction false} RenamedFoundAgain(entries: seq<Entry>, group: string, value: Node, newName: string, k: nat)
    requires FindIndex(GroupFolders(entries, group), Targets(value)) == Some(k)
    ensures FindIndex(GroupFolders(RenameIn(entries, GroupFolders(entries, group)[k].folderId, newName), group), Targets(value))
            == Some(k)
    ensures GroupFolders(RenameIn(entries, GroupFolders(entries, group)[k].folderId, newName), group)[k]
            == GroupFolders(entries, group)[k].(name := newName)
  {
    var folders := GroupFolders(entries, group);
    var id := folders[k].folderId;
    GroupFoldersRenamed(entries, group, id, newName);
    FindIndexMap(folders, (f: Entry) => RenameOne(f, id, newName), Targets(value), Targets(value));
  }

  /** When the `find` lands on the `k`-th folder of the group and the new
      name is fresh, the rename is saved. */
  lemma {:induction false} RenameFolderAt(entries: seq<Entry>, group: string, value: Node, newName: string, k: nat)
    requires value.kind == Folder
    requires FindIndex(GroupFolders(entries, group), Targets(value)) == Some(k)
    requires newName != "" && newName != GroupFolders(entries, group)[k].name
    requires !NameTaken(entries, group, newName)
    ensures RenameFolder(entries, group, value, Some(newName))
            == Saved(RenameIn(entries, GroupFolders(entries, group)[k].folderId, newName))
  {
  }

  /** With unique folder ids and names, renaming a folder and then renaming
      it back to its old name restores the list exactly. */
  lemma {:induction false} RenameFolderRoundTrip(entries: seq<Entry>, group: string, value: Node, newName: string, oldName: string)
    requires UniqueFolderIds(entries) && UniqueFolderNames(entries, group)
    requires oldName != ""
    requires exists e :: e in entries && IsGroupFolder(e, group) && Some(e.folderId) == value.id && e.name == oldName
    requires RenameFolder(entries, group, value, Some(newName)).Saved?
    ensures RenameFolder(RenameFolder(entries, group, value, Some(newName)).entries, group, value, Some(oldName))
            == Saved(entries)
  {
    var folders := GroupFolders(entries, group);
    var k := FindIndex(folders, Targets(value)).value;
    var target := folders[k];
    assert target in folders;
    var id := target.folderId;
    var r := RenameIn(entries, id, newName);
    assert RenameFolder(entries, group, value, Some(newName)) == Saved(r);
    // the named folder is the target, by unique ids
    var e :| e in entries && IsGroupFolder(e, group) && Some(e.folderId) == value.id && e.name == oldName;
    var p :| 0 <= p < |entries| && entries[p] == e;
    var q :| 0 <= q < |entries| && entries[q] == target;
    assert p == q;
    RenameBack(entries, group, q, newName);
    RenamedFoundAgain(entries, group, value, newName, k);
    RenameFolderAt(r, group, value, oldName, k);
  }

  /** Renaming keeps folder names unique in the group, provided folder ids
      are unique. */
  lemma {:induction false} RenameFolderKeepsNamesUnique(entries: seq<Entry>, group: string, value: Node, newName: Option<string>)
    requires UniqueFolderIds(entries) && UniqueFolderNames(entries, group)
    requires RenameFolder(entries, group, value, newName).Saved?
    ensures UniqueFolderNames(RenameFolder(entries, group, value, newName).entries, group)
  {
    var r := RenameFolder(entries, group, value, newName).entries;
    var name := newName.value;
    forall i, j | 0 <= i < j < |r| && IsGroupFolder(r[i], group) && IsGroupFolder(r[j], group)
      ensures r[i].name != r[j].name
    {
      if r[i] != entries[i] {
        assert r[j] == entries[j];
        assert entries[j] in GroupFolders(entries, group);
      } else if r[j] != entries[j] {
        assert entries[i] in GroupFolders(entries, group);
      }
    }
  }

  // ---------------------------------------------------------------------
  // deleteFolder

  /** `item.group === currentGroup && item.parentId === folderId &&
      item.type === 'folder' && item.id`: the links `collectDescendants`
      follows. */
  predicate ChildFolderOf(e: Entry, group: string, folderId: string)
  {
    e.group == group && e.parentId == Some(folderId) && e.FolderEntry? && e.folderId != ""
  }

  /** A set of ids that contains the id of every group folder whose parent
      it contains. */
  ghost predicate ClosedUnderChildren(entries: seq<Entry>, group: string, ids: set<string>)
  {
    forall e :: (e in entries && e.group == group && e.FolderEntry? && e.folderId != "" &&
                 e.parentId.Some? && e.parentId.value in ids) ==> e.folderId in ids
  }

  /** The recursion of `collectDescendants` has no visited check; it ends
      when the links it follows are acyclic. That is stated on a set `scope`
      of ids closed under the child-folder links (the part of the group the
      walk can reach) by a rank that strictly decreases from parent to child
      inside it. Links outside `scope`, cyclic or not, are not constrained. */
  ghost predicate Ranked(entries: seq<Entry>, group: string, scope: set<string>, rank: string -> nat)
  {
    && ClosedUnderChildren(entries, group, scope)
    && forall e :: (e in entries && e.group == group && e.FolderEntry? && e.folderId != "" &&
                    e.parentId.Some? && e.parentId.value in scope) ==> rank(e.folderId) < rank(e.parentId.value)
  }

  /** What `collectDescendants(folderId, ..)` has added once its `forEach`
      has visited the first `n` entries. */
  ghost function Reach(entries: seq<Entry>, group: string, scope: set<string>, rank: string -> nat,
                       folderId: string, n: nat): set<string>
    requires Ranked(entries, group, scope, rank) && folderId in scope && n <= |entries|
    decreases rank(folderId), n
  {
    if n == 0 then {folderId}
    else
      var e := entries[n - 1];
      Reach(entries, group, scope, rank, folderId, n - 1) +
      (if ChildFolderOf(e, group, folderId)
       then assert e in entries; Reach(entries, group, scope, rank, e.folderId, |entries|)
       else {})
  }

  /** The ids `collectDescendants(folderId, ..)` adds to its bucket. */
  ghost function Descendants(entries: seq<Entry>, group: string, scope: set<string>, rank: string -> nat,
                             folderId: string): set<string>
    requires Ranked(entries, group, scope, rank) && folderId in scope
  {
    Reach(entries, group, scope, rank, folderId, |entries|)
  }

  lemma {:induction false} ReachGrows(entries: seq<Entry>, group: string, scope: set<string>, rank: string -> nat,
                                      f: string, n: nat, m: nat)
    requires Ranked(entries, group, scope, rank) && f in scope && n <= m <= |entries|
    ensures f in Reach(entries, group, scope, rank, f, n)
    ensures Reach(entries, group, scope, rank, f, n) <= Reach(entries, group, scope, rank, f, m)
    decreases m
  {
    if n < m { ReachGrows(entries, group, scope, rank, f, n, m - 1); }
    else if n > 0 { ReachGrows(entries, group, scope, rank, f, n - 1, n - 1); }
  }

  /** Whatever is reached from a reached id is reached, and stays in the
      scope. */
  lemma {:induction false} ReachTransitive(entries: seq<Entry>, group: string, scope: set<string>, rank: string -> nat,
                                           f: string, n: nat, x: string)
    requires Ranked(entries, group, scope, rank) && f in scope && n <= |entries|
    requires x in Reach(entries, group, scope, rank, f, n)
    ensures x in scope
    ensures Descendants(entries, group, scope, rank, x) <= Descendants(entries, group, scope, rank, f)
    decreases rank(f), n
  {
    if n > 0 {
      var e := entries[n - 1];
      if x in Reach(entries, group, scope, rank, f, n - 1) {
        ReachTransitive(entries, group, scope, rank, f, n - 1, x);
      } else {
        assert ChildFolderOf(e, group, f) && e in entries;
        ReachTransitive(entries, group, scope, rank, e.folderId, |entries|, x);
        ReachGrows(entries, group, scope, rank, f, n, |entries|);
      }
    }
  }

  /** The collected ids are the least set holding the folder and closed
      under the child-folder links: the descendant closure. */
  lemma {:induction false} DescendantsAreClosure(entries: seq<Entry>, group: string, scope: set<string>,
                                                 rank: string -> nat, f: string)
    requires Ranked(entries, group, scope, rank) && f in scope
    ensures f in Descendants(entries, group, scope, rank, f)
    ensures ClosedUnderChildren(entries, group, Descendants(entries, group, scope, rank, f))
  {
    var d := Descendants(entries, group, scope, rank, f);
    ReachGrows(entries, group, scope, rank, f, 0, |entries|);
    forall e | e in entries && e.group == group && e.FolderEntry? && e.folderId != "" &&
      e.parentId.Some? && e.parentId.value in d
      ensures e.folderId in d
    {
      var x := e.parentId.value;
      var k :| 0 <= k < |entries| && entries[k] == e;
      ReachTransitive(entries, group, scope, rank, f, |entries|, x);
      ReachGrows(entries, group, scope, rank, x, k + 1, |entries|);
      ReachGrows(entries, group, scope, rank, e.folderId, 0, |entries|);
    }
  }

  /** ... and nothing more: every closed set holding the folder holds them. */
  lemma {:induction false} DescendantsAreLeast(entries: seq<Entry>, group: string, scope: set<string>,
                                               rank: string -> nat, f: string, n: nat, ids: set<string>)
    requires Ranked(entries, group, scope, rank) && f in scope && n <= |entries|
    requires f in ids && ClosedUnderChildren(entries, group, ids)
    ensures Reach(entries, group, scope, rank, f, n) <= ids
    decreases rank(f), n
  {
    if n > 0 {
      DescendantsAreLeast(entries, group, scope, rank, f, n - 1, ids);
      var e := entries[n - 1];
      if ChildFolderOf(e, group, f) {
        assert e in entries;
        DescendantsAreLeast(entries, group, scope, rank, e.folderId, |entries|, ids);
      }
    }
  }

  /** A cycle of parent links among the group's folders that the walk can
      reach admits no rank: `collectDescendants` would recurse around it
      forever. `cycle[k]` is a child of `cycle[k + 1]`, and the last member a
      child of the first. */
  lemma {:induction false} CycleHasNoRank(entries: seq<Entry>, group: string, scope: set<string>,
                                          rank: string -> nat, cycle: seq<Entry>)
    requires |cycle| > 0
    requires forall k :: 0 <= k < |cycle| ==>
               (cycle[k] in entries && cycle[k].group == group && cycle[k].FolderEntry? && cycle[k].folderId != "")
    requires forall k :: 0 <= k < |cycle| ==>
               cycle[k].parentId == Some(cycle[if k + 1 < |cycle| then k + 1 else 0].folderId)
    ensures cycle[0].folderId in scope ==> !Ranked(entries, group, scope, rank)
  {
    if cycle[0].folderId in scope && Ranked(entries, group, scope, rank) {
      var last := |cycle| - 1;
      assert cycle[last] in entries;
      var m := last;
      while 0 < m
        invariant 0 <= m <= last
        invariant cycle[m].folderId in scope
        invariant rank(cycle[m].folderId) + (last - m) <= rank(cycle[last].folderId)
      {
        assert cycle[m - 1] in entries;
        m := m - 1;
      }
    }
  }

  /** A cycle the walk cannot reach does not stand in the way: a folder
      without child folders is ranked on its own id, and only it is
      collected, whatever parent links other folders of the group have. */
  lemma {:induction false} LeafFolderRanked(entries: seq<Entry>, group: string, f: string)
    requires forall e :: e in entries ==> !ChildFolderOf(e, group, f)
    ensures Ranked(entries, group, {f}, (x: string) => 0)
    ensures Descendants(entries, group, {f}, (x: string) => 0, f) == {f}
  {
    var rank := (x: string) => 0;
    forall n: nat | n <= |entries| ensures Reach(entries, group, {f}, rank, f, n) == {f} {
      var m := 0;
      while m < n
        invariant m <= n
        invariant Reach(entries, group, {f}, rank, f, m) == {f}
      {
        assert entries[m] in entries;
        m := m + 1;
      }
    }
  }

  /** Deleting a root folder of a group that also holds a parent cycle
      between two other folders collects only the root folder and removes
      only it. */
  lemma {:induction false} DeleteBesideCycle()
    ensures var es := [FolderEntry("a", "A", "g", None), FolderEntry("b", "B", "g", Some("c")),
                       FolderEntry("c", "C", "g", Some("b"))];
            && Ranked(es, "g", {"a"}, (x: string) => 0)
            && Descendants(es, "g", {"a"}, (x: string) => 0, "a") == {"a"}
            && RemoveCollected(es, "g", {"a"}) == es[1..]
  {
    var es := [FolderEntry("a", "A", "g", None), FolderEntry("b", "B", "g", Some("c")),
               FolderEntry("c", "C", "g", Some("b"))];
    forall e | e in es ensures !ChildFolderOf(e, "g", "a") {
    }
    LeafFolderRanked(es, "g", "a");
    var keep := (e: Entry) => !Doomed(e, "g", {"a"});
    assert !keep(es[0]) && keep(es[1]) && keep(es[2]);
    assert es[1..][1..] == [es[2]] && es[1..][1..][1..] == [];
    assert es[1..][0] == es[1] && es[1..][1..][0] == es[2];
    calc {
      Filter(es, keep);
      { assert es[0] == FolderEntry("a", "A", "g", None); }
      Filter(es[1..], keep);
      [es[1]] + Filter(es[1..][1..], keep);
      [es[1]] + ([es[2]] + Filter(es[1..][1..][1..], keep));
      es[1..];
    }
  }

  /** `collectDescendants(folderId, items, bucket)`: adds the folder and,
      recursively, each group folder whose parent is it. */
  method CollectDescendants(folderId: string, items: seq<Entry>, group: string, bucket: set<string>,
                            ghost scope: set<string>, ghost rank: string -> nat)
    returns (out: set<string>)
    requires Ranked(items, group, scope, rank) && folderId in scope
    ensures out == bucket + Descendants(items, group, scope, rank, folderId)
    decreases rank(folderId), 1
  {
    out := bucket + {folderId};
    var i := 0;
    while i < |items|
      invariant 0 <= i <= |items|
      invariant out == bucket + Reach(items, group, scope, rank, folderId, i)
    {
      var item := items[i];
      if item.group == group && item.parentId == Some(folderId) && item.FolderEntry? && item.folderId != "" {
        assert item in items;
        out := CollectDescendants(item.folderId, items, group, out, scope, rank);
      }
      i := i + 1;
    }
  }

  /** The `filter` of `deleteFolder`: in the current group, a folder whose id
      was collected goes, and so does any entry whose parent was collected. */
  predicate Doomed(e: Entry, group: string, ids: set<string>)
  {
    e.group == group &&
    ((e.FolderEntry? && e.folderId != "" && e.folderId in ids) || (Truthy(e.parentId) && e.parentId.value in ids))
  }

  function RemoveCollected(entries: seq<Entry>, group: string, ids: set<string>): seq<Entry>
  {
    Filter(entries, (e: Entry) => !Doomed(e, group, ids))
  }

  /** The delete keeps the survivors in order and with every copy, keeps
      every entry of other groups, and drops exactly the doomed entries; afterwards no entry of
      the group names a removed id as its parent. */
  lemma {:induction false} RemoveCollectedSpec(entries: seq<Entry>, group: string, ids: set<string>)
    ensures IsSubsequence(RemoveCollected(entries, group, ids), entries)
    ensures forall e: Entry ::
              multiset(RemoveCollected(entries, group, ids))[e] == if Doomed(e, group, ids) then 0 else multiset(entries)[e]
    ensures forall e: Entry :: e.group != group ==>
              multiset(RemoveCollected(entries, group, ids))[e] == multiset(entries)[e]
    ensures forall e: Entry :: e in RemoveCollected(entries, group, ids) <==> e in entries && !Doomed(e, group, ids)
    ensures forall e :: e in RemoveCollected(entries, group, ids) && e.group == group && Truthy(e.parentId)
              ==> e.parentId.value !in ids
  {
    FilterIsSubsequence(entries, (e: Entry) => !Doomed(e, group, ids));
    FilterCount(entries, (e: Entry) => !Doomed(e, group, ids));
  }

  /** `deleteFolder` on the tree node `value`; `confirmed` is whether the
      user chose 'Delete' in the dialog. */
  method DeleteFolder(entries: seq<Entry>, group: string, value: Node, confirmed: bool,
                      ghost scope: set<string>, ghost rank: string -> nat)
    returns (r: Outcome)
    requires value.kind == Folder && confirmed && Truthy(value.id) ==>
               Ranked(entries, group, scope, rank) && value.id.value in scope
    ensures value.kind != Folder || !confirmed || !Truthy(value.id) ==> r == NoOp
    ensures value.kind == Folder && confirmed && Truthy(value.id) ==>
              r == Saved(RemoveCollected(entries, group, Descendants(entries, group, scope, rank, value.id.value)))
  {
    if value.kind != Folder { return NoOp; }
    if !confirmed { return NoOp; }
    if !Truthy(value.id) { return NoOp; }
    var idsToRemove := CollectDescendants(value.id.value, entries, group, {}, scope, rank);
    assert idsToRemove == Descendants(entries, group, scope, rank, value.id.value);
    r := Saved(RemoveCollected(entries, group, idsToRemove));
  }
}

=== FILE: item_order.dfy ===
/** The ordering the tree view applies to a level of items
    (`FavoritesProvider.sortItems` and `getItemLabel`): directories before
    plain files, then labels ascending or descending, ties kept in input
    order. `Array.prototype.sort` is stable, so the sort is modelled as a
    stable insertion sort driven by the same comparator. */
module ItemOrder {
  import opened Common
  import opened Model

  /** JavaScript `a < b` on strings: lexicographic by character. */
  predicate LabelLess(a: string, b: string)
    decreases |a|
  {
    if |a| == 0 then |b| > 0
    else if |b| == 0 then false
    else if a[0] != b[0] then a[0] < b[0]
    else LabelLess(a[1..], b[1..])
  }

  lemma {:induction false} LabelLessIrreflexive(a: string)
    ensures !LabelLess(a, a)
    decreases |a|
  {
    if |a| > 0 { LabelLessIrreflexive(a[1..]); }
  }

  lemma {:induction false} LabelLessAsymmetric(a: string, b: string)
    ensures LabelLess(a, b) ==> !LabelLess(b, a)
    decreases |a|
  {
    if |a| > 0 && |b| > 0 && a[0] == b[0] { LabelLessAsymmetric(a[1..], b[1..]); }
  }

  lemma {:induction false} LabelLessTransitive(a: string, b: string, c: string)
    requires LabelLess(a, b) && LabelLess(b, c)
    ensures LabelLess(a, c)
    decreases |a|
  {
    if |a| > 0 && |b| > 0 && |c| > 0 && a[0] == b[0] && b[0] == c[0] {
      LabelLessTransitive(a[1..], b[1..], c[1..]);
    }
  }

  lemma {:induction false} LabelLessTotal(a: string, b: string)
    ensures a == b || LabelLess(a, b) || LabelLess(b, a)
    decreases |a|
  {
    if |a| > 0 && |b| > 0 && a[0] == b[0] {
      LabelLessTotal(a[1..], b[1..]);
      if a[1..] == b[1..] {
        assert a == [a[0]] + a[1..] && b == [b[0]] + b[1..];
      }
    }
  }

  /** `getItemLabel`: a folder's name, or the base name of a resource path. */
  function ItemLabel(host: Host, item: Item): (shown: string)
    ensures item.FolderItem? ==> shown == item.name
    ensures item.ResourceItem? ==> shown == host.basename(item.filePath)
  {
    match item
    case FolderItem(name, _, _, _) => name
    case ResourceItem(filePath, _, _, _, _, _) => host.basename(filePath)
  }

  /** Folders and directory resources sort before plain resources. */
  predicate IsDir(item: Item)
  {
    item.FolderItem? || item.Stat() == DIRECTORY
  }

  /** What the comparator looks at: the directory class and the label. */
  function Key(host: Host, item: Item): (bool, string)
  {
    (IsDir(item), ItemLabel(host, item))
  }

  /** The comparator passed to `sort`; `asc` is `sort === 'ASC'`. */
  function Compare(host: Host, asc: bool, a: Item, b: Item): (c: int)
    ensures -1 <= c <= 1
    ensures IsDir(a) != IsDir(b) ==> (c < 0 <==> IsDir(a))
    ensures IsDir(a) == IsDir(b) ==>
              (c < 0 <==> if asc then LabelLess(ItemLabel(host, a), ItemLabel(host, b))
                          else LabelLess(ItemLabel(host, b), ItemLabel(host, a)))
    ensures IsDir(a) == IsDir(b) ==>
              (c > 0 <==> if asc then LabelLess(ItemLabel(host, b), ItemLabel(host, a))
                          else LabelLess(ItemLabel(host, a), ItemLabel(host, b)))
  {
    var aName := ItemLabel(host, a);
    var bName := ItemLabel(host, b);
    LabelLessAsymmetric(aName, bName);
    var aIsDir := IsDir(a);
    var bIsDir := IsDir(b);
    if aIsDir && !bIsDir then -1
    else if !aIsDir && bIsDir then 1
    else if LabelLess(aName, bName) then (if asc then -1 else 1)
    else if LabelLess(bName, aName) then (if asc then 1 else -1)
    else 0
  }

  /** The comparator is consistent, as `sort` needs: it is antisymmetric,
      returns 0 exactly on equal keys, and is transitive. */
  lemma {:induction false} CompareConsistent(host: Host, asc: bool, a: Item, b: Item, c: Item)
    ensures Compare(host, asc, a, b) == -Compare(host, asc, b, a)
    ensures Compare(host, asc, a, b) == 0 <==> Key(host, a) == Key(host, b)
    ensures Compare(host, asc, a, b) <= 0 && Compare(host, asc, b, c) <= 0 ==> Compare(host, asc, a, c) <= 0
    ensures Compare(host, asc, a, b) < 0 && Compare(host, asc, b, c) <= 0 ==> Compare(host, asc, a, c) < 0
  {
    var la, lb, lc := ItemLabel(host, a), ItemLabel(host, b), ItemLabel(host, c);
    LabelLessIrreflexive(la);
    LabelLessAsymmetric(la, lb);
    LabelLessAsymmetric(lb, lc);
    LabelLessAsymmetric(la, lc);
    LabelLessTotal(la, lb);
    LabelLessTotal(lb, lc);
    LabelLessTotal(la, lc);
    if LabelLess(la, lb) && LabelLess(lb, lc) { LabelLessTransitive(la, lb, lc); }
    if LabelLess(lc, lb) && LabelLess(lb, la) { LabelLessTransitive(lc, lb, la); }
  }

  /** The two directions mirror each other on items of the same class, and
      directories come first in both. */
  lemma {:induction false} CompareMirror(host: Host, a: Item, b: Item)
    ensures IsDir(a) == IsDir(b) ==> Compare(host, false, a, b) == -Compare(host, true, a, b)
    ensures IsDir(a) && !IsDir(b) ==> Compare(host, true, a, b) < 0 && Compare(host, false, a, b) < 0
  {
  }

  /** Every pair is in comparator order. */
  ghost predicate Sorted(host: Host, asc: bool, s: seq<Item>)
  {
    forall i, j :: 0 <= i < j < |s| ==> Compare(host, asc, s[i], s[j]) <= 0
  }

  lemma {:induction false} SortedTail(host: Host, asc: bool, s: seq<Item>)
    requires Sorted(host, asc, s) && s != []
    ensures Sorted(host, asc, s[1..])
  {
    forall i, j | 0 <= i < j < |s| - 1 ensures Compare(host, asc, s[1..][i], s[1..][j]) <= 0 {
      assert s[1..][i] == s[i + 1] && s[1..][j] == s[j + 1];
    }
  }

  /** The items of `s` whose key is `k`, in their order in `s`. */
  function WithKey(host: Host, s: seq<Item>, k: (bool, string)): seq<Item>
  {
    if s == [] then []
    else (if Key(host, s[0]) == k then [s[0]] else []) + WithKey(host, s[1..], k)
  }

  lemma {:induction false} WithKeyAppend(host: Host, a: seq<Item>, b: seq<Item>, k: (bool, string))
    ensures WithKey(host, a + b, k) == WithKey(host, a, k) + WithKey(host, b, k)
  {
    if a == [] {
      assert a + b == b;
    } else {
      assert (a + b)[0] == a[0];
      assert (a + b)[1..] == a[1..] + b;
      WithKeyAppend(host, a[1..], b, k);
    }
  }

  lemma {:induction false} WithKeyNone(host: Host, s: seq<Item>, k: (bool, string))
    requires forall y :: y in s ==> Key(host, y) != k
    ensures WithKey(host, s, k) == []
  {
    if s != [] { WithKeyNone(host, s[1..], k); }
  }

  /** Insert `x` after every element that does not compare greater. */
  function Insert(host: Host, asc: bool, x: Item, t: seq<Item>): seq<Item>
  {
    if t == [] then [x]
    else if Compare(host, asc, x, t[0]) < 0 then [x] + t
    else [t[0]] + Insert(host, asc, x, t[1..])
  }

  /** Stable insertion sort under `Compare`. */
  function StableSort(host: Host, asc: bool, s: seq<Item>): seq<Item>
  {
    if s == [] then []
    else Insert(host, asc, s[|s| - 1], StableSort(host, asc, s[..|s| - 1]))
  }

  lemma {:induction false} InsertPermutes(host: Host, asc: bool, x: Item, t: seq<Item>)
    ensures multiset(Insert(host, asc, x, t)) == multiset(t) + multiset{x}
  {
    if t != [] && Compare(host, asc, x, t[0]) >= 0 {
      InsertPermutes(host, asc, x, t[1..]);
      assert t == [t[0]] + t[1..];
    }
  }

  /** An item no greater than any element of a sorted list can go in front. */
  lemma {:induction false} SortedCons(host: Host, asc: bool, a: Item, rest: seq<Item>)
    requires Sorted(host, asc, rest)
    requires forall k :: 0 <= k < |rest| ==> Compare(host, asc, a, rest[k]) <= 0
    ensures Sorted(host, asc, [a] + rest)
  {
    var r := [a] + rest;
    forall i, j | 0 <= i < j < |r| ensures Compare(host, asc, r[i], r[j]) <= 0 {
      assert r[j] == rest[j - 1];
      if i > 0 {
        assert r[i] == rest[i - 1];
      }
    }
  }

  lemma {:induction false} InsertSorted(host: Host, asc: bool, x: Item, t: seq<Item>)
    requires Sorted(host, asc, t)
    ensures Sorted(host, asc, Insert(host, asc, x, t))
  {
    if t == [] {
    } else if Compare(host, asc, x, t[0]) < 0 {
      forall k | 0 <= k < |t| ensures Compare(host, asc, x, t[k]) <= 0 {
        CompareConsistent(host, asc, x, t[0], t[k]);
      }
      SortedCons(host, asc, x, t);
    } else {
      var rest := Insert(host, asc, x, t[1..]);
      SortedTail(host, asc, t);
      InsertSorted(host, asc, x, t[1..]);
      InsertPermutes(host, asc, x, t[1..]);
      CompareConsistent(host, asc, x, t[0], x);
      forall k | 0 <= k < |rest| ensures Compare(host, asc, t[0], rest[k]) <= 0 {
        assert rest[k] in multiset(rest);
        if rest[k] != x {
          assert rest[k] in multiset(t[1..]);
          var m :| 0 <= m < |t[1..]| && t[1..][m] == rest[k];
          assert t[m + 1] == rest[k];
        }
      }
      SortedCons(host, asc, t[0], rest);
    }
  }

  /** An item placed in front of a sorted list that it precedes strictly
      shares its key with none of them. */
  lemma {:induction false} InsertFrontKeyOrder(host: Host, asc: bool, x: Item, t: seq<Item>, k: (bool, string))
    requires Sorted(host, asc, t) && t != [] && Compare(host, asc, x, t[0]) < 0
    ensures WithKey(host, [x] + t, k) == WithKey(host, t, k) + (if Key(host, x) == k then [x] else [])
  {
    var tail := if Key(host, x) == k then [x] else [];
    WithKeyAppend(host, [x], t, k);
    assert WithKey(host, [x], k) == tail;
    if Key(host, x) == k {
      forall y | y in t ensures Key(host, y) != k {
        var m :| 0 <= m < |t| && t[m] == y;
        CompareConsistent(host, asc, x, t[0], y);
      }
      WithKeyNone(host, t, k);
    }
  }

  /** Inserting into a sorted list keeps, for every key, the items with that
      key in their order, the inserted item coming after them. */
  lemma {:induction false} InsertKeepsKeyOrder(host: Host, asc: bool, x: Item, t: seq<Item>, k: (bool, string))
    requires Sorted(host, asc, t)
    ensures WithKey(host, Insert(host, asc, x, t), k)
         == WithKey(host, t, k) + (if Key(host, x) == k then [x] else [])
  {
    var tail := if Key(host, x) == k then [x] else [];
    if t == [] {
      assert WithKey(host, [x], k) == tail + WithKey(host, [], k);
    } else if Compare(host, asc, x, t[0]) < 0 {
      assert Insert(host, asc, x, t) == [x] + t;
      InsertFrontKeyOrder(host, asc, x, t, k);
    } else {
      var rest := Insert(host, asc, x, t[1..]);
      SortedTail(host, asc, t);
      InsertKeepsKeyOrder(host, asc, x, t[1..], k);
      calc {
        WithKey(host, Insert(host, asc, x, t), k);
        { assert Insert(host, asc, x, t) == [t[0]] + rest; WithKeyAppend(host, [t[0]], rest, k); }
        WithKey(host, [t[0]], k) + WithKey(host, rest, k);
        WithKey(host, [t[0]], k) + (WithKey(host, t[1..], k) + tail);
        { WithKeyAppend(host, [t[0]], t[1..], k); assert t == [t[0]] + t[1..]; }
        WithKey(host, t, k) + tail;
      }
    }
  }


  /** The stable sort returns a sorted permutation of its input. */
  lemma {:induction false} StableSortPermutesSorted(host: Host, asc: bool, s: seq<Item>)
    ensures multiset(StableSort(host, asc, s)) == multiset(s)
    ensures Sorted(host, asc, StableSort(host, asc, s))
  {
    if s != [] {
      var init, last := s[..|s| - 1], s[|s| - 1];
      assert s == init + [last];
      StableSortPermutesSorted(host, asc, init);
      InsertPermutes(host, asc, last, StableSort(host, asc, init));
      InsertSorted(host, asc, last, StableSort(host, asc, init));
    }
  }

  /** The stable sort keeps the items of each key in their input order. */
  lemma {:induction false} StableSortKeyOrder(host: Host, asc: bool, s: seq<Item>, k: (bool, string))
    ensures WithKey(host, StableSort(host, asc, s), k) == WithKey(host, s, k)
  {
    if s != [] {
      var init, last := s[..|s| - 1], s[|s| - 1];
      assert s == init + [last];
      StableSortKeyOrder(host, asc, init, k);
      StableSortPermutesSorted(host, asc, init);
      InsertKeepsKeyOrder(host, asc, last, StableSort(host, asc, init), k);
      WithKeyAppend(host, init, [last], k);
      assert WithKey(host, [last], k) == (if Key(host, last) == k then [last] else []) by {
        assert [last][1..] == [];
      }
    }
  }

  /** Inserting adds the image of the inserted item to the images of the
      list, whatever the images are (tree nodes, say). */
  lemma {:induction false} InsertMapPermutes<U>(host: Host, asc: bool, x: Item, t: seq<Item>, f: Item -> U)
    ensures multiset(Map(Insert(host, asc, x, t), f)) == multiset(Map(t, f)) + multiset{f(x)}
  {
    var fx := multiset{f(x)};
    if t == [] {
      assert Map([x], f) == [f(x)];
    } else if Compare(host, asc, x, t[0]) < 0 {
      assert Map([x] + t, f) == [f(x)] + Map(t, f) by { MapAppend([x], t, f); }
    } else {
      var rest := Insert(host, asc, x, t[1..]);
      var ft0 := multiset{f(t[0])};
      assert multiset(Map(rest, f)) == multiset(Map(t[1..], f)) + fx by {
        InsertMapPermutes(host, asc, x, t[1..], f);
      }
      assert multiset(Map([t[0]] + rest, f)) == ft0 + multiset(Map(rest, f)) by {
        MapAppend([t[0]], rest, f);
        assert Map([t[0]], f) == [f(t[0])];
      }
      assert multiset(Map(t, f)) == ft0 + multiset(Map(t[1..], f)) by {
        MapAppend([t[0]], t[1..], f);
        assert Map([t[0]], f) == [f(t[0])];
        assert t == [t[0]] + t[1..];
      }
    }
  }

  /** The images of the sorted list are those of the input, each as often. */
  lemma {:induction false} StableSortMapPermutes<U>(host: Host, asc: bool, s: seq<Item>, f: Item -> U)
    ensures multiset(Map(StableSort(host, asc, s), f)) == multiset(Map(s, f))
  {
    if s != [] {
      var init, last := s[..|s| - 1], s[|s| - 1];
      assert s == init + [last];
      StableSortMapPermutes(host, asc, init, f);
      InsertMapPermutes(host, asc, last, StableSort(host, asc, init), f);
      MapAppend(init, [last], f);
    }
  }

  /** The stable sort returns a sorted permutation of its input that keeps
      the input order among items of equal key. */
  lemma {:induction false} StableSortCorrect(host: Host, asc: bool, s: seq<Item>)
    ensures multiset(StableSort(host, asc, s)) == multiset(s)
    ensures Sorted(host, asc, StableSort(host, asc, s))
    ensures forall k :: WithKey(host, StableSort(host, asc, s), k) == WithKey(host, s, k)
  {
    StableSortPermutesSorted(host, asc, s);
    forall k ensures WithKey(host, StableSort(host, asc, s), k) == WithKey(host, s, k) {
      StableSortKeyOrder(host, asc, s, k);
    }
  }

  /** `sortItems`: 'MANUAL' returns the input as it is; any other mode
      returns a sorted copy, ascending for 'ASC' and descending otherwise. */
  function SortItems(host: Host, items: seq<Item>, sort: string): (r: seq<Item>)
    ensures sort == "MANUAL" ==> r == items
    ensures multiset(r) == multiset(items)
    ensures sort != "MANUAL" ==> Sorted(host, sort == "ASC", r)
    ensures sort != "MANUAL" ==> forall i, j :: 0 <= i < j < |r| && IsDir(r[j]) ==> IsDir(r[i])
    ensures sort != "MANUAL" ==> forall k :: WithKey(host, r, k) == WithKey(host, items, k)
  {
    if sort == "MANUAL" then items
    else
      var isAsc := sort == "ASC";
      StableSortCorrect(host, isAsc, items);
      var r := StableSort(host, isAsc, items);
      assert forall i, j :: 0 <= i < j < |r| ==> Compare(host, isAsc, r[i], r[j]) <= 0;
      r
  }

  /** Ascending order over two folders and a file: the folders first, by
      name, then the file. */
  lemma {:induction false} SortExample(host: Host)
    requires host.basename("/a.txt") == "a.txt"
    ensures StableSort(host, true, [FolderItem("B", "default", "f2", None), ResourceItem("/a.txt", FILE, "default", None, None, None),
                                    FolderItem("A", "default", "f1", None)])
            == [FolderItem("A", "default", "f1", None), FolderItem("B", "default", "f2", None),
                ResourceItem("/a.txt", FILE, "default", None, None, None)]
  {
    var fb, ra, fa := FolderItem("B", "default", "f2", None), ResourceItem("/a.txt", FILE, "default", None, None, None),
                      FolderItem("A", "default", "f1", None);
    assert LabelLess("A", "B");
    assert Compare(host, true, fa, fb) < 0;
    assert Compare(host, true, ra, fb) > 0;
    var s2 := [fb, ra];
    assert [fb, ra, fa][..2] == s2 && s2[..1] == [fb] && [fb][..0] == [];
    calc {
      StableSort(host, true, [fb]);
      Insert(host, true, fb, []);
      [fb];
    }
    calc {
      StableSort(host, true, s2);
      Insert(host, true, ra, [fb]);
      { assert [fb][1..] == []; }
      [fb] + Insert(host, true, ra, []);
      s2;
    }
    calc {
      StableSort(host, true, [fb, ra, fa]);
      Insert(host, true, fa, s2);
      [fa] + s2;
    }
  }
}

=== FILE: model.dfy ===
/** The shapes of the persisted favorites list and of the items the tree view
    shows (src/model/index.ts), plus the tree node handed to the commands. */
module Model {
  import opened Common

  datatype FavoriteType = Resource | Folder

  /** Result of probing a path: a file, a directory, or neither (missing or
      unreadable). */
  datatype FileStat = FILE | DIRECTORY | NEITHER

  /** A URI, kept opaque apart from what the commands read: its scheme, its
      `toString()` and its `fsPath`. */
  datatype Uri = Uri(scheme: string, text: string, fsPath: string)

  /** The text before the first ':' (all of it when there is none): the
      scheme `Uri.parse` reads off a URI string. */
  function SchemeOf(s: string): (r: string)
    ensures |r| <= |s| && r == s[..|r|] && ':' !in r
    ensures |r| < |s| ==> s[|r|] == ':'
  {
    if s == [] || s[0] == ':' then [] else [s[0]] + SchemeOf(s[1..])
  }


  /** One entry of the persisted `resources` setting (`ItemInSettingsJson`).
      A resource's `id` and `type` are optional; `tagged` records whether the
      entry carries `type: 'resource'` (legacy entries do not). A folder's
      `id` and `name` are required. */
  datatype Entry =
    | ResourceEntry(id: Option<string>, filePath: string, group: string, parentId: Option<string>, tagged: bool)
    | FolderEntry(folderId: string, name: string, group: string, parentId: Option<string>)
  {
    function Kind(): FavoriteType
    {
      if FolderEntry? then Folder else Resource
    }

    /** The entry's `id` as an optional string (always present on folders). */
    function IdField(): Option<string>
    {
      if FolderEntry? then Some(folderId) else id
    }
  }

  /** An entry after probing (`Item`). A folder item has stat DIRECTORY and
      no path; a resource item carries the probe result and, when its path is
      a URI string, the parsed URI. */
  datatype Item =
    | FolderItem(name: string, group: string, folderId: string, parentId: Option<string>)
    | ResourceItem(filePath: string, stat: FileStat, group: string, uri: Option<Uri>,
                   id: Option<string>, parentId: Option<string>)
  {
    function Stat(): FileStat
    {
      if FolderItem? then DIRECTORY else stat
    }

    function Kind(): FavoriteType
    {
      if FolderItem? then Folder else Resource
    }

    function IdField(): Option<string>
    {
      if FolderItem? then Some(folderId) else id
    }
  }

  /** A tree node as the view builds it (`Resource`), reduced to the fields
      the view and the commands read (`caption` is the TreeItem label). `id` is the node id after the view's
      override (`i.id || i.name` for folders, `i.id || i.filePath` for
      resources); `command` is the URI the node opens on click, if any. */
  datatype Node = Node(caption: string, collapsed: bool, value: string, contextValue: string,
                       command: Option<Uri>, uri: Option<Uri>, kind: FavoriteType,
                       id: Option<string>, parentId: Option<string>)

  /** Collaborators whose code is not part of this model, as total functions:
      `pathResolve`, `path.basename`, the stat probe of a plain path (a failed
      `fs.stat` reads as NEITHER), the listing of a plain directory (a failed
      `readdir` reads as no entries), `path.join`, `Uri.joinPath(..).toString()`,
      and the `toString()` and `fsPath` of a parsed URI (`toString()` may
      re-encode the text, so it need not give back the parsed string). */
  datatype Host = Host(
    pathResolve: string -> string,
    basename: string -> string,
    probe: string -> FileStat,
    list: string -> seq<string>,
    joinPath: (string, string) -> string,
    joinUri: (string, string) -> string,
    uriToString: string -> string,
    uriFsPath: string -> string)

  /** `Uri.parse(s)`: the scheme is read off the text; the string form and
      the `fsPath` are left to the host. */
  function ParseUri(host: Host, s: string): (u: Uri)
    ensures ':' !in u.scheme && |u.scheme| <= |s| && s[..|u.scheme|] == u.scheme
    ensures |u.scheme| < |s| ==> s[|u.scheme|] == ':'
  {
    Uri(SchemeOf(s), host.uriToString(s), host.uriFsPath(s))
  }

  /** What a list-editing command does: save a new list, do nothing (a
      cancelled prompt, a missing target, an item already at its place), or
      refuse with the duplicate-folder-name warning. */
  datatype Outcome = Saved(entries: seq<Entry>) | NoOp | DuplicateName
}

=== FILE: move_down.dfy ===
/** `favorites.moveDown` (src/command/moveDown.ts): swap the node's entry
    with the next entry of its sibling scope. */
module MoveDown {
  import opened Common
  import opened Model
  import opened MoveScope
  import MoveUp

  /** Where the command moves the node: from its own index to the index of
      the next scope member; `None` when the node is not in the scope or is
      already last. */
  function DownPlan(s: seq<Entry>, group: Option<string>, value: Node): (plan: Option<Move>)
    ensures plan.Some? ==> plan.value.from < plan.value.to < |s|
  {
    var scope := ScopeOf(s, group, Normalize(value.parentId));
    match FindIndex(scope, MatchesNode(value))
    case None => None
    case Some(k) =>
      if scope[k].previousIndex == scope[|scope| - 1].previousIndex then None
      else
        ScopeOrdered(s, group, Normalize(value.parentId), k, k + 1);
        Some(Move(scope[k].previousIndex, scope[k + 1].previousIndex))
  }

  /** The command moves the node only when a scope member matches it and
      the first such member has a successor in the scope. */
  lemma {:induction false} DownPlanWhen(s: seq<Entry>, group: Option<string>, value: Node)
    ensures var scope := ScopeOf(s, group, Normalize(value.parentId));
            var found := FindIndex(scope, MatchesNode(value));
            DownPlan(s, group, value).Some? <==> found.Some? && found.value < |scope| - 1
  {
    var scope := ScopeOf(s, group, Normalize(value.parentId));
    var found := FindIndex(scope, MatchesNode(value));
    if found.Some? {
      ScopeLast(s, group, Normalize(value.parentId), found.value);
    }
  }

  /** A planned move takes the first in-scope entry that matches the node to
      the index of the nearest in-scope entry below it, whatever lies in
      between. */
  lemma {:induction false} DownPlanMoves(s: seq<Entry>, group: Option<string>, value: Node)
    requires DownPlan(s, group, value).Some?
    ensures var m := DownPlan(s, group, value).value;
            var parent := Normalize(value.parentId);
            InScope(s[m.from], group, parent) && Matches(value, Record(s[m.from], m.from)) &&
            (forall p :: 0 <= p < m.from && InScope(s[p], group, parent) ==> !Matches(value, Record(s[p], p))) &&
            InScope(s[m.to], group, parent) && m.from < m.to &&
            (forall p :: m.from < p < m.to ==> !InScope(s[p], group, parent))
  {
    var parent := Normalize(value.parentId);
    var k := FindIndex(ScopeOf(s, group, parent), MatchesNode(value)).value;
    FoundTarget(s, group, parent, value, k);
    ScopeOfIncreasing(s, group, parent);
    ScopeGap(s, group, parent, k);
  }

  /** The command on the loaded list `items`; the result says whether
      `sortOrder` is set to 'MANUAL' (only after a move). */
  method MoveDown(items: array<Entry>, group: Option<string>, value: Node) returns (manual: bool)
    modifies items
    ensures manual <==> DownPlan(old(items[..]), group, value).Some?
    ensures manual ==> items[..] == Swapped(old(items[..]), DownPlan(old(items[..]), group, value).value.from,
                                            DownPlan(old(items[..]), group, value).value.to)
    ensures !manual ==> items[..] == old(items[..])
  {
    var targetParentId := Normalize(value.parentId);
    var filtered := BuildScope(items, group, targetParentId);
    // `find` and `findIndex` use the same test, so one search serves both;
    // a found target also means the scope is not empty.
    var targetIndex := FindIndex(filtered, MatchesNode(value));
    if targetIndex.None? {
      return false;
    }
    var currentIndex := filtered[targetIndex.value].previousIndex;
    if currentIndex == filtered[|filtered| - 1].previousIndex {
      return false;
    }
    var nextIndex := filtered[targetIndex.value + 1].previousIndex;
    Swap(items, currentIndex, nextIndex);
    return true;
  }

  /** The plan when the first match sits at `k`, before the scope's end. */
  lemma {:induction false} DownPlanAt(s: seq<Entry>, group: Option<string>, value: Node, k: nat)
    requires k + 1 < |ScopeOf(s, group, Normalize(value.parentId))|
    requires FindIndex(ScopeOf(s, group, Normalize(value.parentId)), MatchesNode(value)) == Some(k)
    ensures DownPlan(s, group, value) ==
            Some(Move(ScopeOf(s, group, Normalize(value.parentId))[k].previousIndex,
                      ScopeOf(s, group, Normalize(value.parentId))[k + 1].previousIndex))
  {
    ScopeLast(s, group, Normalize(value.parentId), k);
  }

  /** Swapping the first match at position `k` of its scope with its
      predecessor leaves it as the first match at `k - 1`, followed by the
      entry it was swapped with. */
  lemma {:induction false} SwapFindsEarlier(s: seq<Entry>, group: Option<string>, value: Node, k: nat, a: nat, b: nat)
    requires 0 < k < |ScopeOf(s, group, Normalize(value.parentId))|
    requires FindIndex(ScopeOf(s, group, Normalize(value.parentId)), MatchesNode(value)) == Some(k)
    requires a == ScopeOf(s, group, Normalize(value.parentId))[k].previousIndex
    requires b == ScopeOf(s, group, Normalize(value.parentId))[k - 1].previousIndex
    ensures |ScopeOf(Swapped(s, a, b), group, Normalize(value.parentId))| == |ScopeOf(s, group, Normalize(value.parentId))|
    ensures FindIndex(ScopeOf(Swapped(s, a, b), group, Normalize(value.parentId)), MatchesNode(value)) == Some(k - 1)
    ensures ScopeOf(Swapped(s, a, b), group, Normalize(value.parentId))[k - 1].previousIndex == b
    ensures ScopeOf(Swapped(s, a, b), group, Normalize(value.parentId))[k].previousIndex == a
  {
    var parent := Normalize(value.parentId);
    var scope := ScopeOf(s, group, parent);
    ScopeAfterSwap(s, group, parent, k);
    var scope' := ScopeOf(Swapped(s, a, b), group, parent);
    forall j | 0 <= j < k - 1 ensures !MatchesNode(value)(scope'[j]) {
      assert scope'[j] == scope[j];
    }
    assert MatchesNode(value)(scope[k]);
    FindIndexIs(scope', MatchesNode(value), k - 1);
  }

  /** Moving a node up and then down again restores the list: after the
      swap the node is found one place earlier in its scope, and its
      successor there is the entry it was swapped with. */
  lemma {:induction false} MoveUpThenDown(s: seq<Entry>, group: Option<string>, value: Node)
    requires MoveUp.UpPlan(s, group, value).Some?
    ensures var up := MoveUp.UpPlan(s, group, value).value;
            var s' := Swapped(s, up.from, up.to);
            DownPlan(s', group, value) == Some(Move(up.to, up.from)) &&
            Swapped(s', up.to, up.from) == s
  {
    var scope := ScopeOf(s, group, Normalize(value.parentId));
    var k := FindIndex(scope, MatchesNode(value)).value;
    var a, b := scope[k].previousIndex, scope[k - 1].previousIndex;
    assert MoveUp.UpPlan(s, group, value).value == Move(a, b);
    var swapped := Swapped(s, a, b);
    assert DownPlan(swapped, group, value) == Some(Move(b, a)) by {
      SwapFindsEarlier(s, group, value, k, a, b);
      DownPlanAt(swapped, group, value, k - 1);
    }
    assert Swapped(swapped, b, a) == s by {
      SwappedSpec(s, a, b);
    }
  }
}

=== FILE: move_scope.dfy ===
/** What the four move commands (src/command/moveUp.ts, moveDown.ts,
    moveToTop.ts, moveToBottom.ts) share: the sibling scope their `forEach`
    builds, the target lookup, and the two ways they rearrange the list in
    place (a swap of two positions, and a remove-then-reinsert `splice`). */
module MoveScope {
  import opened Common
  import opened Model

  /** One record of `filteredArray`: an in-scope entry and its index in the
      list. */
  datatype ScopeEntry = ScopeEntry(filePath: string, group: string, previousIndex: nat, id: Option<string>)

  /** A planned rearrangement: move the entry at `from` to `to`. */
  datatype Move = Move(from: nat, to: nat)

  /** The scope test of the `forEach`: not a folder, in the current group
      (the raw setting, so nothing matches when it is unset), and with the
      target's parent, an empty parent id counting as none. */
  predicate InScope(e: Entry, group: Option<string>, parent: Option<string>)
  {
    e.ResourceEntry? && Some(e.group) == group && Normalize(e.parentId) == parent
  }

  /** The record pushed for the entry `e` found at index `p`. */
  function Record(e: Entry, p: nat): ScopeEntry
    requires e.ResourceEntry?
  {
    ScopeEntry(e.filePath, e.group, p, e.id)
  }

  /** `filteredArray` once the `forEach` has run over `s`: one record per
      in-scope entry, in list order. */
  function ScopeOf(s: seq<Entry>, group: Option<string>, parent: Option<string>): (scope: seq<ScopeEntry>)
    ensures |scope| <= |s|
    ensures forall k :: 0 <= k < |scope| ==>
              scope[k].previousIndex < |s| && InScope(s[scope[k].previousIndex], group, parent) &&
              scope[k] == Record(s[scope[k].previousIndex], scope[k].previousIndex)
  {
    if s == [] then []
    else
      var n := |s| - 1;
      var init := ScopeOf(s[..n], group, parent);
      var r := init + (if InScope(s[n], group, parent) then [Record(s[n], n)] else []);
      assert forall p :: 0 <= p < n ==> s[..n][p] == s[p];
      assert forall k :: 0 <= k < |init| ==> r[k] == init[k];
      r
  }

  /** The scope lists the entries in list order: indices strictly increase. */
  lemma {:induction false} ScopeOfIncreasing(s: seq<Entry>, group: Option<string>, parent: Option<string>)
    ensures forall i, j :: 0 <= i < j < |ScopeOf(s, group, parent)| ==>
              ScopeOf(s, group, parent)[i].previousIndex < ScopeOf(s, group, parent)[j].previousIndex
  {
    if s != [] {
      var n := |s| - 1;
      ScopeOfIncreasing(s[..n], group, parent);
      var init := ScopeOf(s[..n], group, parent);
      var scope := ScopeOf(s, group, parent);
      assert scope == init + (if InScope(s[n], group, parent) then [Record(s[n], n)] else []);
      assert forall k :: 0 <= k < |init| ==> scope[k] == init[k] && init[k].previousIndex < n;
    }
  }

  /** One instance of `ScopeOfIncreasing`. */
  lemma {:induction false} ScopeOrdered(s: seq<Entry>, group: Option<string>, parent: Option<string>, i: nat, j: nat)
    requires i < j < |ScopeOf(s, group, parent)|
    ensures ScopeOf(s, group, parent)[i].previousIndex < ScopeOf(s, group, parent)[j].previousIndex
  {
    ScopeOfIncreasing(s, group, parent);
  }

  /** Only the last record of the scope has the last record's index. */
  lemma {:induction false} ScopeLast(s: seq<Entry>, group: Option<string>, parent: Option<string>, k: nat)
    requires k < |ScopeOf(s, group, parent)|
    ensures ScopeOf(s, group, parent)[k].previousIndex == ScopeOf(s, group, parent)[|ScopeOf(s, group, parent)| - 1].previousIndex
            <==> k == |ScopeOf(s, group, parent)| - 1
  {
    if k < |ScopeOf(s, group, parent)| - 1 {
      ScopeOrdered(s, group, parent, k, |ScopeOf(s, group, parent)| - 1);
    }
  }

  /** Every in-scope entry has its record in the scope. */
  lemma {:induction false} ScopeOfComplete(s: seq<Entry>, group: Option<string>, parent: Option<string>)
    ensures forall p :: 0 <= p < |s| && InScope(s[p], group, parent) ==> Record(s[p], p) in ScopeOf(s, group, parent)
  {
    if s != [] {
      var n := |s| - 1;
      ScopeOfComplete(s[..n], group, parent);
      var init := ScopeOf(s[..n], group, parent);
      assert ScopeOf(s, group, parent) == init + (if InScope(s[n], group, parent) then [Record(s[n], n)] else []);
      assert forall p :: 0 <= p < n ==> s[..n][p] == s[p];
    }
  }

  /** The `forEach` of the move commands: the scope of the entries of
      `group` under `parent`. */
  method BuildScope(items: array<Entry>, group: Option<string>, parent: Option<string>) returns (scope: seq<ScopeEntry>)
    ensures scope == ScopeOf(items[..], group, parent)
  {
    scope := [];
    var index := 0;
    while index < items.Length
      invariant 0 <= index <= items.Length
      invariant scope == ScopeOf(items[..index], group, parent)
    {
      var item := items[index];
      if item.ResourceEntry? && Some(item.group) == group {
        var parentId := Normalize(item.parentId);
        if parentId == parent {
          scope := scope + [ScopeEntry(item.filePath, item.group, index, item.id)];
        }
      }
      assert items[..index + 1][..index] == items[..index];
      index := index + 1;
    }
    assert items[..items.Length] == items[..];
  }

  /** Two lists with the same in-scope positions have scopes with the same
      indices, each record read off its own list. */
  lemma {:induction false} ScopeOfPositions(s: seq<Entry>, t: seq<Entry>, group: Option<string>, parent: Option<string>)
    requires |s| == |t|
    requires forall p :: 0 <= p < |s| ==> InScope(s[p], group, parent) == InScope(t[p], group, parent)
    ensures |ScopeOf(t, group, parent)| == |ScopeOf(s, group, parent)|
    ensures forall k :: 0 <= k < |ScopeOf(s, group, parent)| ==>
              ScopeOf(t, group, parent)[k].previousIndex == ScopeOf(s, group, parent)[k].previousIndex
  {
    if s != [] {
      var n := |s| - 1;
      forall p | 0 <= p < n ensures InScope(s[..n][p], group, parent) == InScope(t[..n][p], group, parent) {
        assert s[..n][p] == s[p] && t[..n][p] == t[p];
      }
      ScopeOfPositions(s[..n], t[..n], group, parent);
      assert InScope(s[n], group, parent) == InScope(t[n], group, parent);
      var tailS := if InScope(s[n], group, parent) then [Record(s[n], n)] else [];
      var tailT := if InScope(t[n], group, parent) then [Record(t[n], n)] else [];
      SameIndicesAppend(ScopeOf(s[..n], group, parent), ScopeOf(t[..n], group, parent), tailS, tailT);
    }
  }

  /** Appending records with the same indices keeps two scopes' indices
      equal. */
  lemma SameIndicesAppend(a: seq<ScopeEntry>, b: seq<ScopeEntry>, c: seq<ScopeEntry>, d: seq<ScopeEntry>)
    requires |a| == |b| && forall k :: 0 <= k < |a| ==> a[k].previousIndex == b[k].previousIndex
    requires |c| == |d| && forall k :: 0 <= k < |c| ==> c[k].previousIndex == d[k].previousIndex
    ensures forall k :: 0 <= k < |a + c| ==> (a + c)[k].previousIndex == (b + d)[k].previousIndex
  {
  }

  /** Where an in-scope entry sits in the scope. */
  lemma {:induction false} ScopeIndexOf(s: seq<Entry>, group: Option<string>, parent: Option<string>, p: nat) returns (m: nat)
    requires p < |s| && InScope(s[p], group, parent)
    ensures m < |ScopeOf(s, group, parent)| && ScopeOf(s, group, parent)[m] == Record(s[p], p)
  {
    var scope := ScopeOf(s, group, parent);
    ScopeOfComplete(s, group, parent);
    m :| 0 <= m < |scope| && scope[m] == Record(s[p], p);
  }

  /** The scope members before the `k`-th are exactly the in-scope entries
      before its index, and likewise after it. */
  lemma {:induction false} ScopeAround(s: seq<Entry>, group: Option<string>, parent: Option<string>, k: nat)
    requires k < |ScopeOf(s, group, parent)|
    ensures var scope := ScopeOf(s, group, parent);
            forall p :: 0 <= p < scope[k].previousIndex && InScope(s[p], group, parent) ==>
              exists m :: 0 <= m < k && scope[m] == Record(s[p], p)
    ensures var scope := ScopeOf(s, group, parent);
            forall p :: scope[k].previousIndex < p < |s| && InScope(s[p], group, parent) ==>
              exists m :: k < m < |scope| && scope[m] == Record(s[p], p)
  {
    var scope := ScopeOf(s, group, parent);
    ScopeOfIncreasing(s, group, parent);
    forall p | 0 <= p < scope[k].previousIndex && InScope(s[p], group, parent)
      ensures exists m :: 0 <= m < k && scope[m] == Record(s[p], p)
    {
      var m := ScopeIndexOf(s, group, parent, p);
    }
    forall p | scope[k].previousIndex < p < |s| && InScope(s[p], group, parent)
      ensures exists m :: k < m < |scope| && scope[m] == Record(s[p], p)
    {
      var m := ScopeIndexOf(s, group, parent, p);
    }
  }

  /** No in-scope entry lies between two neighbouring scope members. */
  lemma {:induction false} ScopeGap(s: seq<Entry>, group: Option<string>, parent: Option<string>, k: nat)
    requires k + 1 < |ScopeOf(s, group, parent)|
    ensures var scope := ScopeOf(s, group, parent);
            forall p :: scope[k].previousIndex < p < scope[k + 1].previousIndex ==> !InScope(s[p], group, parent)
  {
    ScopeOfIncreasing(s, group, parent);
    ScopeAround(s, group, parent, k + 1);
  }

  /** Swapping the entries of two neighbouring scope members exchanges their
      records in the scope, each record taking the index it now sits at. */
  lemma {:induction false} ScopeAfterSwap(s: seq<Entry>, group: Option<string>, parent: Option<string>, k: nat)
    requires 0 < k < |ScopeOf(s, group, parent)|
    ensures var scope := ScopeOf(s, group, parent);
            var a, b := scope[k].previousIndex, scope[k - 1].previousIndex;
            var scope' := ScopeOf(Swapped(s, a, b), group, parent);
            |scope'| == |scope| && scope'[k - 1] == Record(s[a], b) && scope'[k] == Record(s[b], a) &&
            forall j :: 0 <= j < |scope| && j != k - 1 && j != k ==> scope'[j] == scope[j]
  {
    var scope := ScopeOf(s, group, parent);
    var a, b := scope[k].previousIndex, scope[k - 1].previousIndex;
    var s' := Swapped(s, a, b);
    ScopeOfIncreasing(s, group, parent);
    SwappedSpec(s, a, b);
    ScopeOfPositions(s, s', group, parent);
    var scope' := ScopeOf(s', group, parent);
    forall j | 0 <= j < |scope| && j != k - 1 && j != k ensures scope'[j] == scope[j] {
      assert scope[j].previousIndex != a && scope[j].previousIndex != b by {
        if j < k - 1 { assert scope[j].previousIndex < b; }
        else { assert a < scope[j].previousIndex; }
      }
    }
  }

  /** The test of `find` / `findIndex`: by id when both the node and the
      record carry one, by path otherwise. */
  predicate Matches(value: Node, x: ScopeEntry)
  {
    if Truthy(value.id) && Truthy(x.id) then x.id.value == value.id.value else x.filePath == value.value
  }

  function MatchesNode(value: Node): ScopeEntry -> bool
  {
    (x: ScopeEntry) => Matches(value, x)
  }

  /** The member `find` returns is an in-scope entry matching the node, and
      no in-scope entry above it matches. */
  lemma {:induction false} FoundTarget(s: seq<Entry>, group: Option<string>, parent: Option<string>, value: Node, k: nat)
    requires FindIndex(ScopeOf(s, group, parent), MatchesNode(value)) == Some(k)
    ensures var from := ScopeOf(s, group, parent)[k].previousIndex;
            InScope(s[from], group, parent) && Matches(value, Record(s[from], from)) &&
            forall p :: 0 <= p < from && InScope(s[p], group, parent) ==> !Matches(value, Record(s[p], p))
  {
    var scope := ScopeOf(s, group, parent);
    ScopeAround(s, group, parent, k);
    forall p | 0 <= p < scope[k].previousIndex && InScope(s[p], group, parent)
      ensures !Matches(value, Record(s[p], p))
    {
      var m :| 0 <= m < k && scope[m] == Record(s[p], p);
      assert !MatchesNode(value)(scope[m]);
    }
  }

  // ---------------------------------------------------------------------
  // Swapping two positions (`replaceArrayElements`)

  /** The list with the entries at `i` and `j` exchanged. */
  function Swapped(s: seq<Entry>, i: nat, j: nat): seq<Entry>
    requires i < |s| && j < |s|
  {
    s[i := s[j]][j := s[i]]
  }

  /** A swap exchanges the two entries, leaves every other position alone,
      and undoes itself. */
  lemma {:induction false} SwappedSpec(s: seq<Entry>, i: nat, j: nat)
    requires i < |s| && j < |s|
    ensures |Swapped(s, i, j)| == |s|
    ensures Swapped(s, i, j)[i] == s[j] && Swapped(s, i, j)[j] == s[i]
    ensures forall p :: 0 <= p < |s| && p != i && p != j ==> Swapped(s, i, j)[p] == s[p]
    ensures Swapped(Swapped(s, i, j), j, i) == s
  {
  }

  /** A swap keeps the multiset of entries. */
  lemma {:induction false} SwappedPermutes(s: seq<Entry>, i: nat, j: nat)
    requires i < |s| && j < |s|
    ensures multiset(Swapped(s, i, j)) == multiset(s)
  {
    var m := s[i := s[j]];
    assert multiset(m) == multiset(s) - multiset{s[i]} + multiset{s[j]};
    assert m[j] == s[j] || i == j;
    assert multiset(m[j := s[i]]) == multiset(m) - multiset{m[j]} + multiset{s[i]};
  }

  /** `replaceArrayElements(items, i, j)`, taken as an in-place exchange. */
  method Swap(items: array<Entry>, i: nat, j: nat)
    requires i < items.Length && j < items.Length
    modifies items
    ensures items[..] == Swapped(old(items[..]), i, j)
  {
    items[i], items[j] := items[j], items[i];
  }

  // ---------------------------------------------------------------------
  // Remove and reinsert (`items.splice(from, 1)` then `items.splice(to, 0, x)`)

  function RemoveAt(s: seq<Entry>, i: nat): (r: seq<Entry>)
    requires i < |s|
    ensures |r| == |s| - 1
  {
    s[..i] + s[i + 1..]
  }

  function InsertAt(s: seq<Entry>, i: nat, x: Entry): (r: seq<Entry>)
    requires i <= |s|
    ensures |r| == |s| + 1
  {
    s[..i] + [x] + s[i..]
  }

  /** The list after the two `splice` calls: the entry at `from` taken out,
      then put back at index `to` of the shortened list. */
  function Spliced(s: seq<Entry>, from: nat, to: nat): seq<Entry>
    requires from < |s| && to < |s|
  {
    InsertAt(RemoveAt(s, from), to, s[from])
  }

  /** Moving towards the front shifts the entries in between one place back;
      moving towards the end shifts them one place forward. */
  lemma {:induction false} SplicedShape(s: seq<Entry>, from: nat, to: nat)
    requires from < |s| && to < |s|
    ensures to <= from ==> Spliced(s, from, to) == s[..to] + [s[from]] + s[to..from] + s[from + 1..]
    ensures from <= to ==> Spliced(s, from, to) == s[..from] + s[from + 1..to + 1] + [s[from]] + s[to + 1..]
  {
    var rest := RemoveAt(s, from);
    if to <= from {
      assert rest[..to] == s[..to];
      assert rest[to..] == s[to..from] + s[from + 1..];
    }
    if from <= to {
      assert rest[..to] == s[..from] + s[from + 1..to + 1];
      assert rest[to..] == s[to + 1..];
    }
  }

  /** The entry at one position of the spliced list. */
  lemma {:induction false} SplicedAt(s: seq<Entry>, from: nat, to: nat, p: nat)
    requires from < |s| && to < |s| && p < |s|
    ensures Spliced(s, from, to)[p] ==
              if p == to then s[from]
              else if p < to then (if p < from then s[p] else s[p + 1])
              else (if p <= from then s[p - 1] else s[p])
  {
    var rest := RemoveAt(s, from);
    if p < to {
      assert Spliced(s, from, to)[p] == rest[p];
    } else if to < p {
      assert Spliced(s, from, to)[p] == rest[p - 1];
    }
  }

  /** The moved entry lands at `to`; the others keep their relative order;
      positions outside the moved range keep their entries. */
  lemma {:induction false} SplicedSpec(s: seq<Entry>, from: nat, to: nat)
    requires from < |s| && to < |s|
    ensures |Spliced(s, from, to)| == |s|
    ensures Spliced(s, from, to)[to] == s[from]
    ensures RemoveAt(Spliced(s, from, to), to) == RemoveAt(s, from)
    ensures forall p :: 0 <= p < |s| && (p < from || to < p) && (p < to || from < p) ==> Spliced(s, from, to)[p] == s[p]
    ensures to < from ==> forall p :: to < p <= from ==> Spliced(s, from, to)[p] == s[p - 1]
    ensures from < to ==> forall p :: from <= p < to ==> Spliced(s, from, to)[p] == s[p + 1]
  {
    var r := Spliced(s, from, to);
    var rest := RemoveAt(s, from);
    assert r[..to] == rest[..to] && r[to + 1..] == rest[to..];
    assert RemoveAt(r, to) == rest;
    forall p | 0 <= p < |s|
      ensures (p < from || to < p) && (p < to || from < p) ==> r[p] == s[p]
      ensures to < from && to < p <= from ==> r[p] == s[p - 1]
      ensures from < to && from <= p < to ==> r[p] == s[p + 1]
    {
      SplicedAt(s, from, to, p);
    }
  }

  /** Nothing is lost or duplicated. */
  lemma {:induction false} SplicedPermutes(s: seq<Entry>, from: nat, to: nat)
    requires from < |s| && to < |s|
    ensures multiset(Spliced(s, from, to)) == multiset(s)
  {
    var rest := RemoveAt(s, from);
    assert rest == s[..from] + s[from + 1..];
    assert s == s[..from] + [s[from]] + s[from + 1..];
    assert Spliced(s, from, to) == rest[..to] + [s[from]] + rest[to..];
    assert rest == rest[..to] + rest[to..];
    calc {
      multiset(Spliced(s, from, to));
      multiset(rest[..to]) + multiset([s[from]]) + multiset(rest[to..]);
      multiset(rest) + multiset([s[from]]);
      multiset(s[..from]) + multiset(s[from + 1..]) + multiset([s[from]]);
      multiset(s);
    }
  }

  /** Copies each entry of `items[to..from]` one place towards the end. */
  method ShiftBack(items: array<Entry>, from: nat, to: nat)
    requires to <= from < items.Length
    modifies items
    ensures forall p :: 0 <= p < to ==> items[p] == old(items[p])
    ensures forall p :: to < p <= from ==> items[p] == old(items[p - 1])
    ensures forall p :: from < p < items.Length ==> items[p] == old(items[p])
  {
    var j := from;
    while j > to
      invariant to <= j <= from
      invariant forall p :: 0 <= p < j ==> items[p] == old(items[p])
      invariant forall p :: j < p <= from ==> items[p] == old(items[p - 1])
      invariant forall p :: from < p < items.Length ==> items[p] == old(items[p])
    {
      items[j] := items[j - 1];
      j := j - 1;
    }
  }

  /** Moves the entry at `from` back to `to`, shifting those in between one
      place towards the end. */
  method RotateBack(items: array<Entry>, from: nat, to: nat)
    requires to <= from < items.Length
    modifies items
    ensures items[..] == old(items[..to]) + [old(items[from])] + old(items[to..from]) + old(items[from + 1..])
  {
    ghost var s := items[..];
    var itemToMove := items[from];
    ShiftBack(items, from, to);
    items[to] := itemToMove;
    ghost var r := s[..to] + [s[from]] + s[to..from] + s[from + 1..];
    forall p | 0 <= p < items.Length ensures items[p] == r[p] {
      if p < to {
        assert r[p] == s[p];
      } else if p == to {
        assert r[p] == s[from];
      } else if p <= from {
        assert r[p] == s[p - 1];
      } else {
        assert r[p] == s[p];
      }
    }
    assert items[..] == r;
  }

  /** Copies each entry of `items[from + 1..to + 1]` one place towards the
      front. */
  method ShiftForward(items: array<Entry>, from: nat, to: nat)
    requires from <= to < items.Length
    modifies items
    ensures forall p :: 0 <= p < from ==> items[p] == old(items[p])
    ensures forall p :: from <= p < to ==> items[p] == old(items[p + 1])
    ensures forall p :: to < p < items.Length ==> items[p] == old(items[p])
  {
    var j := from;
    while j < to
      invariant from <= j <= to
      invariant forall p :: 0 <= p < from ==> items[p] == old(items[p])
      invariant forall p :: from <= p < j ==> items[p] == old(items[p + 1])
      invariant forall p :: j < p < items.Length ==> items[p] == old(items[p])
    {
      items[j] := items[j + 1];
      j := j + 1;
    }
  }

  /** Moves the entry at `from` forward to `to`, shifting those in between
      one place towards the front. */
  method RotateForward(items: array<Entry>, from: nat, to: nat)
    requires from <= to < items.Length
    modifies items
    ensures items[..] == old(items[..from]) + old(items[from + 1..to + 1]) + [old(items[from])] + old(items[to + 1..])
  {
    ghost var s := items[..];
    var itemToMove := items[from];
    ShiftForward(items, from, to);
    items[to] := itemToMove;
    ghost var r := s[..from] + s[from + 1..to + 1] + [s[from]] + s[to + 1..];
    forall p | 0 <= p < items.Length ensures items[p] == r[p] {
      if p < from {
        assert r[p] == s[p];
      } else if p < to {
        assert r[p] == s[p + 1];
      } else if p == to {
        assert r[p] == s[from];
      } else {
        assert r[p] == s[p];
      }
    }
    assert items[..] == r;
  }

  /** The two `splice` calls, done in place by shifting the entries between
      `from` and `to` by one. */
  method Splice(items: array<Entry>, from: nat, to: nat)
    requires from < items.Length && to < items.Length
    modifies items
    ensures items[..] == Spliced(old(items[..]), from, to)
  {
    SplicedShape(items[..], from, to);
    if to <= from {
      RotateBack(items, from, to);
    } else {
      RotateForward(items, from, to);
    }
  }
}

=== FILE: move_to_bottom.dfy ===
/** `favorites.moveToBottom` (src/command/moveToBottom.ts): take the node's
    entry out of the list and reinsert it at the index of the last member of
    its sibling scope. */
module MoveToBottom {
  import opened Common
  import opened Model
  import opened MoveScope

  /** Where the command moves the node: from its own index to the index of
      the last scope member; `None` when the node is not in the scope or is
      already last. */
  function BottomPlan(s: seq<Entry>, group: Option<string>, value: Node): (plan: Option<Move>)
    ensures plan.Some? ==> plan.value.from < plan.value.to < |s|
  {
    var scope := ScopeOf(s, group, Normalize(value.parentId));
    match FindIndex(scope, MatchesNode(value))
    case None => None
    case Some(k) =>
      if scope[k].previousIndex == scope[|scope| - 1].previousIndex then None
      else
        ScopeOrdered(s, group, Normalize(value.parentId), k, |scope| - 1);
        Some(Move(scope[k].previousIndex, scope[|scope| - 1].previousIndex))
  }

  /** The command moves the node only when a scope member matches it and
      the first such member is not the last of the scope. */
  lemma {:induction false} BottomPlanWhen(s: seq<Entry>, group: Option<string>, value: Node)
    ensures var scope := ScopeOf(s, group, Normalize(value.parentId));
            var found := FindIndex(scope, MatchesNode(value));
            BottomPlan(s, group, value).Some? <==> found.Some? && found.value < |scope| - 1
  {
    var scope := ScopeOf(s, group, Normalize(value.parentId));
    var found := FindIndex(scope, MatchesNode(value));
    if found.Some? {
      ScopeLast(s, group, Normalize(value.parentId), found.value);
    }
  }

  /** After the move the node's entry is the last in-scope entry of the
      list, right after the former last member; the entries before the
      node's old index and after the bottom index keep their places, and the
      other entries keep their relative order. */
  lemma {:induction false} BottomPlanMoves(s: seq<Entry>, group: Option<string>, value: Node)
    requires BottomPlan(s, group, value).Some?
    ensures var m := BottomPlan(s, group, value).value;
            var parent := Normalize(value.parentId);
            var r := Spliced(s, m.from, m.to);
            m.from < m.to &&
            InScope(s[m.from], group, parent) && Matches(value, Record(s[m.from], m.from)) &&
            (forall p :: 0 <= p < m.from && InScope(s[p], group, parent) ==> !Matches(value, Record(s[p], p))) &&
            |r| == |s| && r[m.to] == s[m.from] && r[m.to - 1] == s[m.to] &&
            InScope(r[m.to], group, parent) &&
            (forall p :: m.to < p < |s| ==> r[p] == s[p] && !InScope(r[p], group, parent)) &&
            (forall p :: 0 <= p < m.from ==> r[p] == s[p]) &&
            RemoveAt(r, m.to) == RemoveAt(s, m.from)
  {
    var parent := Normalize(value.parentId);
    var scope := ScopeOf(s, group, parent);
    var k := FindIndex(scope, MatchesNode(value)).value;
    FoundTarget(s, group, parent, value, k);
    ScopeOfIncreasing(s, group, parent);
    ScopeAround(s, group, parent, |scope| - 1);
    var m := BottomPlan(s, group, value).value;
    SplicedSpec(s, m.from, m.to);
  }

  /** The command on the loaded list `items`; the result says whether
      `sortOrder` is set to 'MANUAL' (only after a move). */
  method MoveToBottom(items: array<Entry>, group: Option<string>, value: Node) returns (manual: bool)
    modifies items
    ensures manual <==> BottomPlan(old(items[..]), group, value).Some?
    ensures manual ==> items[..] == Spliced(old(items[..]), BottomPlan(old(items[..]), group, value).value.from,
                                            BottomPlan(old(items[..]), group, value).value.to)
    ensures !manual ==> items[..] == old(items[..])
  {
    var targetParentId := Normalize(value.parentId);
    var filtered := BuildScope(items, group, targetParentId);
    var target := FindIndex(filtered, MatchesNode(value));
    if target.None? {
      return false;
    }
    var currentIndex := filtered[target.value].previousIndex;
    if currentIndex == filtered[|filtered| - 1].previousIndex {
      return false;
    }
    var bottomIndex := filtered[|filtered| - 1].previousIndex;
    Splice(items, currentIndex, bottomIndex);
    return true;
  }
}

=== FILE: move_to_top.dfy ===
/** `favorites.moveToTop` (src/command/moveToTop.ts): take the node's entry
    out of the list and reinsert it at the index of the first member of its
    sibling scope. */
module MoveToTop {
  import opened Common
  import opened Model
  import opened MoveScope

  /** Where the command moves the node: from its own index to the index of
      the first scope member; `None` when the node is not in the scope or is
      already first. */
  function TopPlan(s: seq<Entry>, group: Option<string>, value: Node): (plan: Option<Move>)
    ensures plan.Some? ==> plan.value.to < plan.value.from < |s|
  {
    var scope := ScopeOf(s, group, Normalize(value.parentId));
    match FindIndex(scope, MatchesNode(value))
    case None => None
    case Some(k) =>
      if scope[k].previousIndex == scope[0].previousIndex then None
      else
        ScopeOrdered(s, group, Normalize(value.parentId), 0, k);
        Some(Move(scope[k].previousIndex, scope[0].previousIndex))
  }

  /** The command moves the node only when a scope member matches it and
      the first such member is not the first of the scope. */
  lemma {:induction false} TopPlanWhen(s: seq<Entry>, group: Option<string>, value: Node)
    ensures var scope := ScopeOf(s, group, Normalize(value.parentId));
            var found := FindIndex(scope, MatchesNode(value));
            TopPlan(s, group, value).Some? <==> found.Some? && found.value > 0
  {
    var scope := ScopeOf(s, group, Normalize(value.parentId));
    var found := FindIndex(scope, MatchesNode(value));
    if found.Some? && found.value > 0 {
      ScopeOrdered(s, group, Normalize(value.parentId), 0, found.value);
    }
  }

  /** After the move the node's entry is the first in-scope entry of the
      list, the former first member sits right after it, the entries before
      the top index and after the node's old index keep their places, and
      the other entries keep their relative order. */
  lemma {:induction false} TopPlanMoves(s: seq<Entry>, group: Option<string>, value: Node)
    requires TopPlan(s, group, value).Some?
    ensures var m := TopPlan(s, group, value).value;
            var parent := Normalize(value.parentId);
            var r := Spliced(s, m.from, m.to);
            m.to < m.from &&
            InScope(s[m.from], group, parent) && Matches(value, Record(s[m.from], m.from)) &&
            (forall p :: 0 <= p < m.from && InScope(s[p], group, parent) ==> !Matches(value, Record(s[p], p))) &&
            |r| == |s| && r[m.to] == s[m.from] && r[m.to + 1] == s[m.to] &&
            InScope(r[m.to], group, parent) &&
            (forall p :: 0 <= p < m.to ==> r[p] == s[p] && !InScope(r[p], group, parent)) &&
            (forall p :: m.from < p < |s| ==> r[p] == s[p]) &&
            RemoveAt(r, m.to) == RemoveAt(s, m.from)
  {
    var parent := Normalize(value.parentId);
    var scope := ScopeOf(s, group, parent);
    var k := FindIndex(scope, MatchesNode(value)).value;
    FoundTarget(s, group, parent, value, k);
    ScopeOfIncreasing(s, group, parent);
    ScopeAround(s, group, parent, 0);
    var m := TopPlan(s, group, value).value;
    SplicedSpec(s, m.from, m.to);
  }

  /** The command on the loaded list `items`; the result says whether
      `sortOrder` is set to 'MANUAL' (only after a move). */
  method MoveToTop(items: array<Entry>, group: Option<string>, value: Node) returns (manual: bool)
    modifies items
    ensures manual <==> TopPlan(old(items[..]), group, value).Some?
    ensures manual ==> items[..] == Spliced(old(items[..]), TopPlan(old(items[..]), group, value).value.from,
                                            TopPlan(old(items[..]), group, value).value.to)
    ensures !manual ==> items[..] == old(items[..])
  {
    var targetParentId := Normalize(value.parentId);
    var filtered := BuildScope(items, group, targetParentId);
    var target := FindIndex(filtered, MatchesNode(value));
    if target.None? {
      return false;
    }
    var currentIndex := filtered[target.value].previousIndex;
    if currentIndex == filtered[0].previousIndex {
      return false;
    }
    var topIndex := filtered[0].previousIndex;
    Splice(items, currentIndex, topIndex);
    return true;
  }
}

=== FILE: move_up.dfy ===
/** `favorites.moveUp` (src/command/moveUp.ts): swap the node's entry with
    the previous entry of its sibling scope. */
module MoveUp {
  import opened Common
  import opened Model
  import opened MoveScope

  /** Where the command moves the node: from its own index to the index of
      the previous scope member; `None` when the node is not in the scope or
      is already first. */
  function UpPlan(s: seq<Entry>, group: Option<string>, value: Node): (plan: Option<Move>)
    ensures plan.Some? ==> plan.value.to < plan.value.from < |s|
  {
    var scope := ScopeOf(s, group, Normalize(value.parentId));
    match FindIndex(scope, MatchesNode(value))
    case None => None
    case Some(k) =>
      if scope[k].previousIndex == scope[0].previousIndex then None
      else
        ScopeOrdered(s, group, Normalize(value.parentId), k - 1, k);
        Some(Move(scope[k].previousIndex, scope[k - 1].previousIndex))
  }

  /** The command moves the node only when a scope member matches it and
      the first such member has a predecessor in the scope. */
  lemma {:induction false} UpPlanWhen(s: seq<Entry>, group: Option<string>, value: Node)
    ensures var scope := ScopeOf(s, group, Normalize(value.parentId));
            var found := FindIndex(scope, MatchesNode(value));
            UpPlan(s, group, value).Some? <==> found.Some? && found.value > 0
  {
    var scope := ScopeOf(s, group, Normalize(value.parentId));
    var found := FindIndex(scope, MatchesNode(value));
    if found.Some? && found.value > 0 {
      ScopeOrdered(s, group, Normalize(value.parentId), 0, found.value);
    }
  }

  /** A planned move takes the first in-scope entry that matches the node to
      the index of the nearest in-scope entry above it, whatever lies in
      between. */
  lemma {:induction false} UpPlanMoves(s: seq<Entry>, group: Option<string>, value: Node)
    requires UpPlan(s, group, value).Some?
    ensures var m := UpPlan(s, group, value).value;
            var parent := Normalize(value.parentId);
            InScope(s[m.from], group, parent) && Matches(value, Record(s[m.from], m.from)) &&
            (forall p :: 0 <= p < m.from && InScope(s[p], group, parent) ==> !Matches(value, Record(s[p], p))) &&
            InScope(s[m.to], group, parent) && m.to < m.from &&
            (forall p :: m.to < p < m.from ==> !InScope(s[p], group, parent))
  {
    var parent := Normalize(value.parentId);
    var k := FindIndex(ScopeOf(s, group, parent), MatchesNode(value)).value;
    FoundTarget(s, group, parent, value, k);
    ScopeOfIncreasing(s, group, parent);
    ScopeGap(s, group, parent, k - 1);
  }

  /** The command on the loaded list `items`; the result says whether
      `sortOrder` is set to 'MANUAL' (only after a move). */
  method MoveUp(items: array<Entry>, group: Option<string>, value: Node) returns (manual: bool)
    modifies items
    ensures manual <==> UpPlan(old(items[..]), group, value).Some?
    ensures manual ==> items[..] == Swapped(old(items[..]), UpPlan(old(items[..]), group, value).value.from,
                                            UpPlan(old(items[..]), group, value).value.to)
    ensures !manual ==> items[..] == old(items[..])
  {
    var targetParentId := Normalize(value.parentId);
    var filtered := BuildScope(items, group, targetParentId);
    // `find` and `findIndex` use the same test, so one search serves both;
    // a found target also means the scope is not empty.
    var targetIndex := FindIndex(filtered, MatchesNode(value));
    if targetIndex.None? {
      return false;
    }
    var currentIndex := filtered[targetIndex.value].previousIndex;
    if currentIndex == filtered[0].previousIndex {
      return false;
    }
    var previousIndex := filtered[targetIndex.value - 1].previousIndex;
    Swap(items, currentIndex, previousIndex);
    return true;
  }
}

=== FILE: provider.dfy ===
/** The tree view's side of the favorites list (`FavoritesProvider`): which
    entries of the current group are shown, how a flat list becomes roots and
    folder children, which paths are URI strings, and how each item becomes a
    tree node. Probing and listing are the `Host` oracles. */
module Provider {
  import opened Common
  import opened Model
  import opened ItemOrder

  // ---------------------------------------------------------------------
  // The URI-string test `^[A-Za-z][A-Za-z0-9+-.]*://`

  predicate IsSchemeStart(c: char)
  {
    'A' <= c <= 'Z' || 'a' <= c <= 'z'
  }

  /** A scheme character as section 3.1 of RFC 3986 defines it:
      ALPHA / DIGIT / "+" / "-" / ".". */
  predicate IsRfcSchemeChar(c: char)
  {
    IsSchemeStart(c) || '0' <= c <= '9' || c == '+' || c == '-' || c == '.'
  }

  /** The regex class `[A-Za-z0-9+-.]`. Inside the class `+-.` is the range
      from '+' to '.', which also holds ','. */
  function SchemeClass(c: char): (b: bool)
    ensures b <==> IsRfcSchemeChar(c) || c == ','
  {
    IsSchemeStart(c) || '0' <= c <= '9' || '+' <= c <= '.'
  }

  /** Scans scheme characters from index `i` until "://" is found. */
  predicate SchemeThenSeparator(s: string, i: nat)
    decreases |s| - i
  {
    if i + 3 <= |s| && s[i..i + 3] == "://" then true
    else if i < |s| && SchemeClass(s[i]) then SchemeThenSeparator(s, i + 1)
    else false
  }

  /** `filePath.match(/^[A-Za-z][A-Za-z0-9+-.]*:\/\//)` */
  predicate IsUriString(s: string)
  {
    |s| > 0 && IsSchemeStart(s[0]) && SchemeThenSeparator(s, 1)
  }

  /** The regex matches with its starred class covering `s[i..k]`. */
  ghost predicate SeparatorAt(s: string, i: nat, k: nat)
  {
    i <= k && k + 3 <= |s| && (forall j :: i <= j < k ==> SchemeClass(s[j])) && s[k..k + 3] == "://"
  }

  lemma {:induction false} SchemeThenSeparatorSpec(s: string, i: nat)
    ensures SchemeThenSeparator(s, i) <==> exists k :: SeparatorAt(s, i, k)
    decreases |s| - i
  {
    if i + 3 <= |s| && s[i..i + 3] == "://" {
      assert SeparatorAt(s, i, i);
    } else if i < |s| && SchemeClass(s[i]) {
      SchemeThenSeparatorSpec(s, i + 1);
      if exists k :: SeparatorAt(s, i, k) {
        var k :| SeparatorAt(s, i, k);
        assert k != i;
        assert SeparatorAt(s, i + 1, k);
      }
      if SchemeThenSeparator(s, i + 1) {
        var k :| SeparatorAt(s, i + 1, k);
        assert SeparatorAt(s, i, k);
      }
    } else {
      forall k ensures !SeparatorAt(s, i, k) {
      }
    }
  }

  /** A path is a URI string iff it starts with a letter, then scheme-class
      characters, then "://". */
  lemma {:induction false} IsUriStringSpec(s: string)
    ensures IsUriString(s) <==> |s| > 0 && IsSchemeStart(s[0]) && exists k :: SeparatorAt(s, 1, k)
  {
    SchemeThenSeparatorSpec(s, 1);
  }

  // ---------------------------------------------------------------------
  // Probing and the current group's items (`getResourceStat`, `getFavoriteItems`)

  /** `getResourceStat`: a resource item with the probe result; URI strings
      are probed as URIs and carry the parsed URI, other paths are resolved
      and probed on the file system. */
  function ResourceStat(host: Host, filePath: string, group: string): (item: Item)
    ensures item.ResourceItem? && item.filePath == filePath && item.group == group
    ensures item.uri.Some? <==> IsUriString(filePath)
    ensures item.id == None && item.parentId == None
  {
    var isUri := IsUriString(filePath);
    ResourceItem(filePath, host.probe(if isUri then filePath else host.pathResolve(filePath)), group,
                 if isUri then Some(ParseUri(host, filePath)) else None, None, None)
  }

  /** The per-entry mapping of `getFavoriteItems`: a folder needs no probe and
      reads as a directory; a resource is probed and keeps its id and parent. */
  function EntryItem(host: Host, group: string, e: Entry): Item
  {
    match e
    case FolderEntry(folderId, name, _, parentId) => FolderItem(name, group, folderId, parentId)
    case ResourceEntry(id, filePath, entryGroup, parentId, _) =>
      var probed := ResourceStat(host, filePath, entryGroup);
      probed.(id := id, parentId := parentId)
  }

  /** The final filter of `getFavoriteItems`. */
  predicate Shown(item: Item)
  {
    item.FolderItem? || item.stat != NEITHER
  }

  /** `getFavoriteItems`: the current group's entries, probed, without the
      resources whose probe found neither a file nor a directory. */
  function FavoriteItems(host: Host, entries: seq<Entry>, group: string): (r: seq<Item>)
    ensures |r| <= |entries|
    ensures forall x :: x in r ==> x.group == group && Shown(x)
  {
    var resources := Filter(entries, (e: Entry) => e.group == group);
    var stats := seq(|resources|, k requires 0 <= k < |resources| => EntryItem(host, group, resources[k]));
    assert forall k :: 0 <= k < |resources| ==> resources[k] in resources;
    assert forall k :: 0 <= k < |stats| ==> stats[k].group == resources[k].group == group;
    Filter(stats, (x: Item) => Shown(x))
  }

  /** Only the current group's entries are shown; every folder of the group
      is kept, and a resource of the group is kept exactly when its probe
      found a file or a directory. */
  lemma {:induction false} FavoriteItemsSpec(host: Host, entries: seq<Entry>, group: string)
    ensures |FavoriteItems(host, entries, group)| <= |entries|
    ensures forall x :: x in FavoriteItems(host, entries, group) ==>
              x.group == group && x.Stat() != NEITHER &&
              exists e :: e in entries && e.group == group && x == EntryItem(host, group, e)
    ensures forall e :: e in entries && e.group == group ==>
              (EntryItem(host, group, e) in FavoriteItems(host, entries, group) <==>
               e.FolderEntry? || EntryItem(host, group, e).stat != NEITHER)
  {
    var resources := Filter(entries, (e: Entry) => e.group == group);
    var stats := seq(|resources|, k requires 0 <= k < |resources| => EntryItem(host, group, resources[k]));
    var r := Filter(stats, (x: Item) => Shown(x));
    assert r == FavoriteItems(host, entries, group);
    forall x | x in r
      ensures x.group == group && x.Stat() != NEITHER
      ensures exists e :: e in entries && e.group == group && x == EntryItem(host, group, e)
    {
      assert x in stats;
      var k :| 0 <= k < |stats| && stats[k] == x;
      assert resources[k] in resources;
    }
    forall e | e in entries && e.group == group
      ensures EntryItem(host, group, e) in r <==> e.FolderEntry? || EntryItem(host, group, e).stat != NEITHER
    {
      assert e in resources;
      var k :| 0 <= k < |resources| && resources[k] == e;
      assert stats[k] == EntryItem(host, group, e);
    }
  }

  /** An entry of the group appended to the list, and shown, is appended to
      the items: the view keeps list order. */
  lemma {:induction false} FavoriteItemsAppend(host: Host, entries: seq<Entry>, group: string, e: Entry)
    requires e.group == group && Shown(EntryItem(host, group, e))
    ensures FavoriteItems(host, entries + [e], group) == FavoriteItems(host, entries, group) + [EntryItem(host, group, e)]
  {
    var inGroup := (e: Entry) => e.group == group;
    var resources := Filter(entries, inGroup);
    var grown := Filter(entries + [e], inGroup);
    assert grown == resources + [e] by {
      FilterAppend(entries, [e], inGroup);
      assert [e][1..] == [];
    }
    var stats := seq(|resources|, k requires 0 <= k < |resources| => EntryItem(host, group, resources[k]));
    var grownStats := seq(|grown|, k requires 0 <= k < |grown| => EntryItem(host, group, grown[k]));
    var x := EntryItem(host, group, e);
    assert grownStats == stats + [x];
    var shown := (x: Item) => Shown(x);
    assert Filter(grownStats, shown) == Filter(stats, shown) + [x] by {
      FilterAppend(stats, [x], shown);
      assert [x][1..] == [];
    }
  }

  // ---------------------------------------------------------------------
  // Roots and folder children (`getChildren`)

  /** The ids of the folders present, skipping empty ids. */
  function FolderIds(items: seq<Item>): set<string>
  {
    set x | x in items && x.FolderItem? && x.folderId != "" :: x.folderId
  }

  /** An item is shown at the root when it has no parent, or its parent is
      not a folder of the list (dangling or non-folder parent ids). */
  predicate IsRoot(item: Item, folderIds: set<string>)
  {
    !Truthy(item.parentId) || item.parentId.value !in folderIds
  }

  function Roots(items: seq<Item>): seq<Item>
  {
    var folderIds := FolderIds(items);
    Filter(items, (x: Item) => IsRoot(x, folderIds))
  }

  /** The items a folder node shows: those whose parent id equals the node's
      id, in list order. */
  function FolderChildren(items: seq<Item>, folderId: Option<string>): seq<Item>
  {
    Filter(items, (x: Item) => x.parentId == folderId)
  }

  /** Some folder of `items` has the non-empty id `id`. */
  ghost predicate HasFolder(items: seq<Item>, id: string)
  {
    exists f :: f in items && f.FolderItem? && f.folderId == id && id != ""
  }

  /** An item appended to the list that is a root comes last among the roots. */
  lemma {:induction false} RootsAppend(items: seq<Item>, x: Item)
    requires IsRoot(x, FolderIds(items + [x]))
    ensures |Roots(items + [x])| > 0 && Roots(items + [x])[|Roots(items + [x])| - 1] == x
  {
    var folderIds := FolderIds(items + [x]);
    var keep := (y: Item) => IsRoot(y, folderIds);
    FilterAppend(items, [x], keep);
    assert Filter([x], keep) == [x] by {
      assert [x][1..] == [];
    }
  }

  /** Every item is either a root or a child of exactly the folder its parent
      id names, and never both; roots are found with one lookup, so an item
      whose parent id names no folder is shown at the root. */
  lemma {:induction false} RootsAndChildrenPartition(items: seq<Item>, x: Item)
    requires x in items
    ensures x in Roots(items) <==> !Truthy(x.parentId) || !HasFolder(items, x.parentId.value)
    ensures x !in Roots(items) ==> HasFolder(items, x.parentId.value) && x in FolderChildren(items, x.parentId)
    ensures forall id :: HasFolder(items, id) && x in FolderChildren(items, Some(id)) ==> x !in Roots(items)
  {
    if Truthy(x.parentId) && HasFolder(items, x.parentId.value) {
      var f :| f in items && f.FolderItem? && f.folderId == x.parentId.value && f.folderId != "";
      assert x.parentId.value in FolderIds(items);
    }
    if Truthy(x.parentId) && x.parentId.value in FolderIds(items) {
      assert HasFolder(items, x.parentId.value);
    }
    forall id | HasFolder(items, id) && x in FolderChildren(items, Some(id)) ensures x !in Roots(items) {
      var f :| f in items && f.FolderItem? && f.folderId == id && id != "";
      assert id in FolderIds(items);
    }
  }

  /** The node id the view gives a folder item (`i.id || i.name`). */
  function FolderNodeId(f: Item): string
    requires f.FolderItem?
  {
    IdOr(Some(f.folderId), f.name)
  }

  /** `x` is shown `d` levels below the root level: a root when `d` is 0,
      otherwise a child of a folder shown one level up. */
  ghost predicate ShownAt(items: seq<Item>, x: Item, d: nat)
    decreases d
  {
    if d == 0 then x in Roots(items)
    else exists f :: f in items && f.FolderItem? && FolderNodeId(f) != "" && ShownAt(items, f, d - 1) &&
                     x in FolderChildren(items, Some(FolderNodeId(f)))
  }

  /** `ids` are ids of folders of `items`, and every folder node whose id is
      one of them has its parent id among them too (a parent cycle, say). */
  ghost predicate ParentClosed(items: seq<Item>, ids: set<string>)
  {
    && ids <= FolderIds(items)
    && forall f :: f in items && f.FolderItem? && FolderNodeId(f) in ids ==>
         f.parentId.Some? && f.parentId.value in ids
  }

  /** Nothing filed under a folder of `ids` is shown at level `d`. */
  ghost predicate HiddenAt(items: seq<Item>, ids: set<string>, d: nat)
  {
    forall x: Item {:trigger ShownAt(items, x, d)} :: x.parentId.Some? && x.parentId.value in ids ==> !ShownAt(items, x, d)
  }

  /** No item whose parent lies in a parent-closed set is a root: its parent
      is a folder of the list. */
  lemma {:induction false} ParentClosedRootLevel(items: seq<Item>, ids: set<string>, d: nat)
    requires ParentClosed(items, ids) && d == 0
    ensures HiddenAt(items, ids, d)
  {
    forall x: Item | x.parentId.Some? && x.parentId.value in ids ensures !ShownAt(items, x, d) {
      assert !IsRoot(x, FolderIds(items));
    }
  }

  /** If nothing filed under the set is shown at level `d - 1`, neither is
      anything at level `d`: only a shown folder's children are, and a folder
      of the set is itself filed under the set. */
  lemma {:induction false} ParentClosedNextLevel(items: seq<Item>, ids: set<string>, d: nat)
    requires ParentClosed(items, ids) && d > 0
    requires HiddenAt(items, ids, d - 1)
    ensures HiddenAt(items, ids, d)
  {
    forall x: Item | x.parentId.Some? && x.parentId.value in ids ensures !ShownAt(items, x, d) {
      assert forall f :: f in items && f.FolderItem? && FolderNodeId(f) in ids ==> !ShownAt(items, f, d - 1);
    }
  }

  /** Items whose parent lies in a parent-closed set of folders are shown at
      no level: none is a root, and a folder one could sit under lies in the
      set too, so is not shown one level up. */
  lemma {:induction false} ParentClosedHidden(items: seq<Item>, ids: set<string>, d: nat)
    requires ParentClosed(items, ids)
    ensures HiddenAt(items, ids, d)
  {
    var k := 0;
    ParentClosedRootLevel(items, ids, k);
    while k < d
      invariant k <= d && HiddenAt(items, ids, k)
    {
      ParentClosedNextLevel(items, ids, k + 1);
      k := k + 1;
    }
  }

  /** Two folders `fb` and `fc` of the list, with non-empty ids `b` and `c`,
      that name each other as parent, and no other folder node with either
      id: neither folder is a root, and neither they nor anything filed under
      them is shown at any level. */
  lemma {:induction false} TwoCycleHidden(items: seq<Item>, fb: Item, fc: Item, x: Item, d: nat)
    requires fb in items && fb.FolderItem? && fb.folderId != ""
    requires fc in items && fc.FolderItem? && fc.folderId != ""
    requires fb.parentId == Some(fc.folderId) && fc.parentId == Some(fb.folderId)
    requires forall f :: f in items && f.FolderItem? && FolderNodeId(f) in {fb.folderId, fc.folderId} ==> f == fb || f == fc
    ensures fb !in Roots(items) && fc !in Roots(items)
    ensures !ShownAt(items, fb, d) && !ShownAt(items, fc, d)
    ensures x.parentId == Some(fb.folderId) || x.parentId == Some(fc.folderId) ==> !ShownAt(items, x, d)
  {
    var ids := {fb.folderId, fc.folderId};
    assert fb.folderId in FolderIds(items) && fc.folderId in FolderIds(items);
    assert ParentClosed(items, ids);
    ParentClosedHidden(items, ids, d);
    ParentClosedRootLevel(items, ids, 0);
    assert !ShownAt(items, fb, 0) && !ShownAt(items, fc, 0);
  }

  /** The smallest such list, the two folders alone: no item is a root. */
  lemma {:induction false} TwoCycleExample(items: seq<Item>)
    requires items == [FolderItem("B", "g", "b", Some("c")), FolderItem("C", "g", "c", Some("b"))]
    ensures forall y :: y !in Roots(items)
  {
    assert items[0] in items && items[1] in items;
    assert FolderIds(items) == {"b", "c"};
  }

  // ---------------------------------------------------------------------
  // Tree nodes (`data2Resource`)

  /** The `file://` URI built for a plain path (non-Windows form). */
  function FileUri(host: Host, filePath: string): Uri
  {
    Uri("file", "file://" + host.pathResolve(filePath), host.pathResolve(filePath))
  }

  /** `id || fallback` on an optional string. */
  function IdOr(id: Option<string>, fallback: string): string
  {
    if Truthy(id) then id.value else fallback
  }

  predicate HasPrefix(s: string, p: string)
  {
    |p| <= |s| && s[..|p|] == p
  }

  predicate HasSuffix(s: string, p: string)
  {
    |p| <= |s| && s[|s| - |p|..] == p
  }

  /** One element of `data2Resource`. Folders are collapsible nodes with
      context 'favorite.folder'; resources get the label of their base name,
      a 'uri.' prefix when the item carries a URI, a '.dir' suffix and no
      open command when it is a directory. */
  function ToNode(host: Host, i: Item, contextValue: string): (n: Node)
    ensures n.kind == i.Kind() && n.parentId == i.parentId
    ensures n.caption == ItemLabel(host, i)
    ensures n.collapsed <==> IsDir(i)
    ensures i.FolderItem? ==> n.contextValue == "favorite.folder" && n.uri == None && n.command == None
    ensures i.FolderItem? ==> n.id == Some(IdOr(Some(i.folderId), i.name))
    ensures i.ResourceItem? ==> n.value == i.filePath && n.id == Some(IdOr(i.id, i.filePath)) && n.uri.Some?
    ensures i.ResourceItem? ==> (n.command.Some? <==> i.stat != DIRECTORY)
    ensures i.ResourceItem? && i.uri.None? ==> n.uri.value.scheme == "file"
  {
    match i
    case FolderItem(name, _, folderId, parentId) =>
      Node(name, true, IdOr(Some(folderId), name), "favorite.folder", None, None, Folder,
           Some(IdOr(Some(folderId), name)), parentId)
    case ResourceItem(filePath, stat, _, uri, id, parentId) =>
      var caption := host.basename(filePath);
      var nodeId := Some(IdOr(id, filePath));
      if uri.None? then
        var fileUri := FileUri(host, filePath);
        if stat == DIRECTORY then
          Node(caption, true, filePath, contextValue + ".dir", None, Some(fileUri), Resource, nodeId, parentId)
        else
          Node(caption, false, filePath, contextValue, Some(fileUri), Some(fileUri), Resource, nodeId, parentId)
      else if stat == DIRECTORY then
        Node(caption, true, filePath, "uri." + contextValue + ".dir", None, uri, Resource, nodeId, parentId)
      else
        Node(caption, false, filePath, "uri." + contextValue, uri, uri, Resource, nodeId, parentId)
  }

  /** The context value of a resource node encodes the two facts the menus
      test: a 'uri.' prefix exactly when the item has a URI, a '.dir' suffix
      exactly when it is a directory. */
  lemma {:induction false} ContextValueRule(host: Host, i: Item, base: string)
    requires i.ResourceItem?
    requires base == "resource" || base == "resourceChild"
    ensures HasPrefix(ToNode(host, i, base).contextValue, "uri.") <==> i.uri.Some?
    ensures HasSuffix(ToNode(host, i, base).contextValue, ".dir") <==> i.stat == DIRECTORY
  {
    var c := ToNode(host, i, base).contextValue;
    assert base[0] == 'r';
    assert base[|base| - 1] == 'e' || base[|base| - 1] == 'd';
    if i.uri.None? {
      assert c[0] == 'r';
    } else {
      assert c[..4] == "uri.";
    }
    if i.stat == DIRECTORY {
      assert c[|c| - 4..] == ".dir";
    } else {
      assert c[|c| - 1] == base[|base| - 1] != 'r';
      assert ".dir"[3] == 'r';
    }
  }

  /** `data2Resource` */
  function Data2Resource(host: Host, data: seq<Item>, contextValue: string): (r: seq<Node>)
    ensures |r| == |data|
    ensures forall k :: 0 <= k < |data| ==>
              r[k].caption == ItemLabel(host, data[k]) && r[k].kind == data[k].Kind() &&
              r[k].parentId == data[k].parentId && (r[k].collapsed <==> IsDir(data[k]))
  {
    seq(|data|, k requires 0 <= k < |data| => ToNode(host, data[k], contextValue))
  }

  /** The nodes `r` are exactly the nodes of the items `items`. */
  ghost predicate ShowsExactly(host: Host, r: seq<Node>, items: seq<Item>, base: string)
  {
    forall n :: n in r <==> exists x :: x in items && n == ToNode(host, x, base)
  }

  /** Nodes listed directories first, then by caption in the given direction. */
  ghost predicate NodesOrdered(r: seq<Node>, asc: bool)
  {
    && (forall i, j :: 0 <= i < j < |r| && r[j].collapsed ==> r[i].collapsed)
    && (forall i, j :: 0 <= i < j < |r| && r[i].collapsed == r[j].collapsed ==>
          if asc then !LabelLess(r[j].caption, r[i].caption) else !LabelLess(r[i].caption, r[j].caption))
  }

  /** Sorting a level, then building its nodes, shows every item of the level
      once per occurrence, and in a non-manual mode the nodes are ordered. */
  lemma {:induction false} SortedLevel(host: Host, items: seq<Item>, sort: string, base: string)
    ensures ShowsExactly(host, Data2Resource(host, SortItems(host, items, sort), base), items, base)
    ensures sort == "MANUAL" ==> Data2Resource(host, SortItems(host, items, sort), base) == Data2Resource(host, items, base)
    ensures sort != "MANUAL" ==> NodesOrdered(Data2Resource(host, SortItems(host, items, sort), base), sort == "ASC")
  {
    SortedLevelShows(host, items, sort, base);
    if sort != "MANUAL" {
      SortedLevelOrdered(host, items, sort, base);
    }
  }

  /** The nodes of a sorted level are exactly the nodes of its items. */
  lemma {:induction false} SortedLevelShows(host: Host, items: seq<Item>, sort: string, base: string)
    ensures ShowsExactly(host, Data2Resource(host, SortItems(host, items, sort), base), items, base)
  {
    var s := SortItems(host, items, sort);
    var r := Data2Resource(host, s, base);
    forall n ensures n in r <==> exists x :: x in items && n == ToNode(host, x, base) {
      if n in r {
        var k :| 0 <= k < |r| && r[k] == n;
        assert s[k] in multiset(s);
        assert s[k] in items;
      }
      if exists x :: x in items && n == ToNode(host, x, base) {
        var x :| x in items && n == ToNode(host, x, base);
        assert x in multiset(items);
        assert x in s;
        var k :| 0 <= k < |s| && s[k] == x;
        assert r[k] == n;
      }
    }
  }

  /** In a non-manual mode the nodes of a sorted level put directories first
      and order labels within each kind. */
  lemma {:induction false} SortedLevelOrdered(host: Host, items: seq<Item>, sort: string, base: string)
    requires sort != "MANUAL"
    ensures NodesOrdered(Data2Resource(host, SortItems(host, items, sort), base), sort == "ASC")
  {
    var s := SortItems(host, items, sort);
    var r := Data2Resource(host, s, base);
    var asc := sort == "ASC";
    forall i, j | 0 <= i < j < |r| ensures r[j].collapsed ==> r[i].collapsed {
      assert r[i] == ToNode(host, s[i], base) && r[j] == ToNode(host, s[j], base);
      assert Compare(host, asc, s[i], s[j]) <= 0;
    }
    forall i, j | 0 <= i < j < |r| && r[i].collapsed == r[j].collapsed
      ensures if asc then !LabelLess(r[j].caption, r[i].caption) else !LabelLess(r[i].caption, r[j].caption)
    {
      assert r[i] == ToNode(host, s[i], base) && r[j] == ToNode(host, s[j], base);
      assert IsDir(s[i]) == IsDir(s[j]);
      assert r[i].caption == ItemLabel(host, s[i]) && r[j].caption == ItemLabel(host, s[j]);
      LabelLessAsymmetric(r[i].caption, r[j].caption);
      assert Compare(host, asc, s[i], s[j]) <= 0;
    }
  }

  /** Sorting a level neither drops nor repeats a node: each item's node
      appears as often as the item does. */
  lemma {:induction false} SortedLevelCounts(host: Host, items: seq<Item>, sort: string, base: string)
    ensures multiset(Data2Resource(host, SortItems(host, items, sort), base)) == multiset(Data2Resource(host, items, base))
  {
    if sort != "MANUAL" {
      var f := (x: Item) => ToNode(host, x, base);
      var s := StableSort(host, sort == "ASC", items);
      assert Data2Resource(host, SortItems(host, items, sort), base) == Map(s, f);
      assert Data2Resource(host, items, base) == Map(items, f);
      StableSortMapPermutes(host, sort == "ASC", items, f);
    }
  }

  // ---------------------------------------------------------------------
  // Expanding a directory resource (`getChildrenResources`)

  /** Listing children of a directory has no manual order: 'MANUAL' reads as
      'ASC' there. */
  function ChildSortOrder(sort: string): (r: string)
    ensures r != "MANUAL"
    ensures r == "ASC" <==> sort == "MANUAL" || sort == "ASC"
  {
    if sort == "MANUAL" then "ASC" else sort
  }

  /** The probed children of a directory: URI strings are listed and joined
      as URIs, plain paths are listed after resolution and joined as paths. */
  function ChildItems(host: Host, filePath: string, group: string): seq<Item>
  {
    var isUri := IsUriString(filePath);
    var names := if isUri then host.list(filePath) else host.list(host.pathResolve(filePath));
    seq(|names|, k requires 0 <= k < |names| =>
      ResourceStat(host, if isUri then host.joinUri(filePath, names[k]) else host.joinPath(filePath, names[k]), group))
  }

  /** `getChildrenResources`: every listed child is shown (none is dropped
      for a failed probe), directories first, then by name ascending when the
      mode is 'MANUAL' or 'ASC' and descending otherwise. */
  function ChildrenResources(host: Host, filePath: string, group: string, sort: string): (r: seq<Node>)
    ensures ShowsExactly(host, r, ChildItems(host, filePath, group), "resourceChild")
    ensures |r| == |ChildItems(host, filePath, group)|
    ensures NodesOrdered(r, sort == "MANUAL" || sort == "ASC")
    ensures multiset(r) == multiset(Data2Resource(host, ChildItems(host, filePath, group), "resourceChild"))
  {
    var items := ChildItems(host, filePath, group);
    SortedLevel(host, items, ChildSortOrder(sort), "resourceChild");
    SortedLevelCounts(host, items, ChildSortOrder(sort), "resourceChild");
    assert |multiset(SortItems(host, items, ChildSortOrder(sort)))| == |multiset(items)|;
    Data2Resource(host, SortItems(host, items, ChildSortOrder(sort)), "resourceChild")
  }

  // ---------------------------------------------------------------------
  // `getChildren`

  /** The nodes under `element` (the root level when absent) for the current
      group `configuredGroup || defaultGroup` and the sort mode `sort`. */
  function GetChildren(host: Host, entries: seq<Entry>, configuredGroup: Option<string>, defaultGroup: string,
                       sort: string, element: Option<Node>): (r: seq<Node>)
    ensures var favorites := FavoriteItems(host, entries, EffectiveGroup(configuredGroup, defaultGroup));
      && (|favorites| == 0 ==> r == [])
      && (|favorites| > 0 && element.None? ==>
            && ShowsExactly(host, r, Roots(favorites), "resource")
            && multiset(r) == multiset(Data2Resource(host, Roots(favorites), "resource"))
            && (sort == "MANUAL" ==> r == Data2Resource(host, Roots(favorites), "resource")))
      && (|favorites| > 0 && element.Some? && element.value.kind == Folder && Truthy(element.value.id) ==>
            && ShowsExactly(host, r, FolderChildren(favorites, element.value.id), "resource")
            && multiset(r) == multiset(Data2Resource(host, FolderChildren(favorites, element.value.id), "resource"))
            && (sort == "MANUAL" ==> r == Data2Resource(host, FolderChildren(favorites, element.value.id), "resource")))
      && ((|favorites| > 0 && element.Some? && !(element.value.kind == Folder && Truthy(element.value.id))
           && !(element.value.uri.Some? && element.value.collapsed)) ==> r == [])
      && ((|favorites| > 0 && element.Some? && !(element.value.kind == Folder && Truthy(element.value.id))
           && element.value.uri.Some? && element.value.collapsed) ==>
            r == ChildrenResources(host, element.value.value, EffectiveGroup(configuredGroup, defaultGroup), sort))
      && (|favorites| > 0 && (element.None? || element.value.kind == Folder) && sort != "MANUAL" ==>
            NodesOrdered(r, sort == "ASC"))
  {
    var currentGroup := EffectiveGroup(configuredGroup, defaultGroup);
    var favorites := FavoriteItems(host, entries, currentGroup);
    if |favorites| == 0 then []
    else if element.None? then
      SortedLevel(host, Roots(favorites), sort, "resource");
      SortedLevelCounts(host, Roots(favorites), sort, "resource");
      Data2Resource(host, SortItems(host, Roots(favorites), sort), "resource")
    else if element.value.kind == Folder && Truthy(element.value.id) then
      var children := FolderChildren(favorites, element.value.id);
      SortedLevel(host, children, sort, "resource");
      SortedLevelCounts(host, children, sort, "resource");
      Data2Resource(host, SortItems(host, children, sort), "resource")
    else if element.value.uri.Some? && element.value.collapsed then
      ChildrenResources(host, element.value.value, currentGroup, sort)
    else []
  }

  /** An entry appended to the list that the view shows with no parent is
      the last root item. */
  lemma {:induction false} AppendedRootLast(host: Host, entries: seq<Entry>, e: Entry)
    requires Shown(EntryItem(host, e.group, e)) && !Truthy(EntryItem(host, e.group, e).parentId)
    ensures var roots := Roots(FavoriteItems(host, entries + [e], e.group));
            |roots| > 0 && roots[|roots| - 1] == EntryItem(host, e.group, e)
  {
    var x := EntryItem(host, e.group, e);
    var before := FavoriteItems(host, entries, e.group);
    assert FavoriteItems(host, entries + [e], e.group) == before + [x] by {
      FavoriteItemsAppend(host, entries, e.group, e);
    }
    RootsAppend(before, x);
  }

  /** The last node built is the last item's node. */
  lemma {:induction false} Data2ResourceLast(host: Host, data: seq<Item>, contextValue: string)
    requires |data| > 0
    ensures var r := Data2Resource(host, data, contextValue);
            |r| > 0 && r[|r| - 1] == ToNode(host, data[|data| - 1], contextValue)
  {
  }

  /** In manual order the root level lists the root items in list order. */
  lemma {:induction false} ManualRootLevel(host: Host, entries: seq<Entry>, configuredGroup: Option<string>, defaultGroup: string)
    requires |FavoriteItems(host, entries, EffectiveGroup(configuredGroup, defaultGroup))| > 0
    ensures GetChildren(host, entries, configuredGroup, defaultGroup, "MANUAL", None)
            == Data2Resource(host, Roots(FavoriteItems(host, entries, EffectiveGroup(configuredGroup, defaultGroup))), "resource")
  {
  }

  /** In manual order, an entry appended to the list that the view shows at
      the root level is the last node of that level. */
  lemma {:induction false} ManualRootsLast(host: Host, entries: seq<Entry>, configuredGroup: Option<string>,
                                           defaultGroup: string, e: Entry)
    requires e.group == EffectiveGroup(configuredGroup, defaultGroup)
    requires Shown(EntryItem(host, e.group, e)) && !Truthy(EntryItem(host, e.group, e).parentId)
    ensures var r := GetChildren(host, entries + [e], configuredGroup, defaultGroup, "MANUAL", None);
            |r| > 0 && r[|r| - 1] == ToNode(host, EntryItem(host, e.group, e), "resource")
  {
    AppendedRootLast(host, entries, e);
    var roots := Roots(FavoriteItems(host, entries + [e], e.group));
    ManualRootLevel(host, entries + [e], configuredGroup, defaultGroup);
    Data2ResourceLast(host, roots, "resource");
  }
}
